=== FILE: README.md ===
# King of Python: the per-tick simulation, in Dafny

King of Python is a two-player pygame platform fighter. Two fighters move and jump on platforms
shaped like keyboard key-caps, and some of those platforms oscillate up and down. Falling bubbles
hand out skills:

- `pow` is a melee hit;
- `delete` wipes the opponent's skill slot;
- `print` fires a projectile.

Other bubbles inflict status effects: `Ctrl+C` freezes the fighter who touches it, and
`TypeError` swaps their left and right controls. The game is a fixed-rate loop. Every draw call
is left out here; what remains is a deterministic step function over an immutable round state.

This project models that step function. It states, as contracts and lemmas, what the code
promises:

- timers that are bounded and count down exactly;
- one-shot skills;
- the owner of a projectile never being hit by it;
- player 1 being resolved before player 2;
- the win resolution;
- a round invariant that every frame preserves.

Layout (one module per source component):

| file | module | models |
|---|---|---|
| `settings.dfy` | `Settings` | the constants of `settings.py` |
| `geometry.dfy` | `Geometry` | the strict axis-aligned overlap test used by every collision |
| `platform.dfy` | `Platforms` | `KeyPlatform` of `entities/platform.py` |
| `player.dfy` | `Players` | `Player` of `entities/player.py` (main.py's `Player` is a verbatim copy) |
| `player_ticks.dfy` | `PlayerTicks` | what one update and a run of updates promise |
| `bubble.dfy` | `Bubbles` | `Bubble` of `entities/bubble.py` and main.py's smaller, slower copy |
| `projectile.dfy` | `Projectiles` | `Projectile` of `entities/projectile.py` |
| `collision.dfy` | `Collision` | `check_player_collision` and `check_attack_hit` of `game/collision.py` and `utils/helpers.py` |
| `game_state.dfy` | `GameStates` | `GameState` of `game/game_state.py` |
| `main_loop.dfy` | `MainLoop` | the per-frame simulation inside `main()` of `main.py` |
| `wrappers.dfy` | `Wrappers` | `Option` and `Result` |

Modelling choices:

- Fighter, bubble and projectile positions and speeds are `real`, so `*= 0.8`, the 2.5 fall speed and gravity are exact.
  Platform positions and speeds, counters and health are `int`, as in the code.
- Python object identity appears twice in the code:
  - a projectile's `owner` is compared with a player object;
  - the two fighters are told apart by object identity.

  Both are modelled by `PlayerId` (`P1`, `P2`).
- Bubble and projectile lists are `seq`s. The loops that remove elements while iterating over a
  copy become left-to-right folds. Those folds return the surviving elements in their original
  order.
- The two copies of the bubble logic differ, and `GameStates.Rules` selects between them:
  - `StateRules` is `game/game_state.py`. Ctrl+C and TypeError also deal 3 chip damage. A super
    bubble reaches `is_super`/`activate_super`, which `Player` does not define, so that pickup is
    the fault `SuperFormUndefined` of a `Result`.
  - `LoopRules` is `main.py`. There is no chip damage, and a super bubble has no effect. main.py
    never spawns a super bubble anyway.
- The random draws of the spawner are parameters. `x` is required to lie in randint's range
  [100, WIDTH - 100], and `rand` is unconstrained.
- `pygame.key.get_pressed()` becomes, for each fighter, the `Keys` record of the three movement
  keys it has held. The `KEYDOWN` events of the frame become a sequence of `Event`s.

Three facts about the code that the model keeps:

- `use_skill` keeps the skill when it fails (for example, during cooldown).
- The swing counter `attack_frame` counts up, and the swing ends after frame 15.
- The reversed-controls timer counts down in every update, frozen or not.

## Model

| member | source | states |
|---|---|---|
| `Geometry.OverlapsSymmetric` | utils/helpers.py:2-5 | strict box overlap does not depend on the order of the two boxes |
| `Platforms.NewPlatform` | entities/platform.py:6-16 | a new platform is anchored at its starting height, heads down-screen, moves 1 px per tick (speed 1) within 60 px of its anchor (range 60), and satisfies the oscillation invariant |
| `Platforms.Update` | entities/platform.py:18-27 | a static platform never changes; a dynamic one moves by exactly speed × direction and changes nothing but y and direction; it turns down-screen at or past the upper edge of its band and up-screen at or past the lower edge, and otherwise keeps its direction |
| `Platforms.UpdateKeepsOscillating` | entities/platform.py:21-27 | one tick keeps the platform inside its band, with direction ±1 and pointing inwards at either edge |
| `Platforms.RunStaysInBand` | entities/platform.py:9-27 | any number of ticks keeps y within [baseY − range, baseY + range] and changes nothing but y and direction |
| `Platforms.RunStraight` | entities/platform.py:21-27 | away from the far edge, k ticks move the platform exactly k px in its direction, and it turns around on arriving at an edge |
| `Platforms.PeriodFromAnchor` | entities/platform.py:18-27 | a moving platform at its anchor and heading down-screen comes back to exactly the same state after 4 × range ticks |
| `Platforms.FreshPlatformPeriod` | entities/platform.py:6-27 | every freshly built moving platform repeats with period 240 ticks |
| `Players.NewPlayer` | entities/player.py:6-32 | a new fighter has a 40×60 body, 100 of 100 hp, no speed, no cooldown, no knockback, an empty skill slot, no swing and no status effect, and satisfies the fighter invariant |
| `Players.Land` | entities/player.py:103-111 | the platform scan changes only y, vertical speed and the ground flag, and a grounded fighter has no vertical speed |
| `Players.LandSpec` | entities/player.py:103-126 | the fighter ends on the ground exactly when it is falling and overlaps some platform; it then stands on the first such platform in list order; otherwise y and vertical speed are untouched |
| `Players.CountDownReverse` | entities/player.py:35-40 | the reversal loses one tick per update and clears together with its timer on reaching zero |
| `Players.CountDownFreeze` | entities/player.py:43-47 | the freeze loses one tick per frozen update and clears together with its timer on reaching zero |
| `Players.Halt` | entities/player.py:48-50 | a frozen fighter has no horizontal speed and only falls |
| `Players.FrozenStep` | entities/player.py:43-61 | a frozen tick changes only the freeze, the horizontal speed (to 0) and the vertical motion; x, cooldown, swing, knockback, facing and health are untouched; the freeze counts down and clears with its timer |
| `Players.CoolDown` | entities/player.py:63-64 | a running cooldown loses one tick and nothing else changes; a finished one stays as it is; a cooldown within [0, 30] ends strictly below 30 |
| `Players.AdvanceSwing` | entities/player.py:66-70 | a swing advances one frame per tick and ends (frame reset to 0) after frame 15, so a swinging fighter's frame is at most 15 |
| `Players.DecayKnockback` | entities/player.py:72-76 | above 0.1 the knockback moves the fighter by its full amount and shrinks to 0.8 of itself; at or below 0.1 it is zeroed without moving; it never grows or changes sign |
| `Players.Steer` | entities/player.py:78-93 | the horizontal speed is 0 or ±6 and facing follows it; a swinging fighter stands still; with normal controls the fighter walks left exactly when left is held, and right exactly when only right is held |
| `Players.SteerReversedSwapsKeys` | entities/player.py:82-84 | steering with reversed controls is steering with the left and right keys exchanged |
| `Players.ClampX` | entities/player.py:113-116 | the fighter ends inside [0, WIDTH − width]; one left of the arena is put at 0, one right of it at WIDTH − width, and one already inside is not moved |
| `Players.Jump` | entities/player.py:95-97 | a jump sets the vertical speed to −18 and leaves the ground only when starting from the ground; otherwise nothing changes |
| `Players.Fall` | entities/player.py:99-101 | gravity is added to the vertical speed before the fighter moves, so the move uses the new vertical speed and the unchanged horizontal one |
| `Players.Settle` | entities/player.py:113-119 | an unfrozen tick ends inside the arena horizontally, at 0 or WIDTH − width when it was outside and unmoved when inside; a fighter below the arena floor has 0 hp and any other keeps its health |
| `Players.ActiveStep` | entities/player.py:63-119 | an unfrozen tick leaves the freeze, the reversal, the held skill and the body size alone, and ends with the body inside the arena horizontally |
| `Players.Update` | entities/player.py:34-119 | an update never changes body size, maximum health or the held skill |
| `Players.UseSkill` | entities/player.py:128-139 | a skill fires exactly when one is held and the cooldown has run out; firing empties the slot and restarts the 30-tick cooldown; `pow`/`delete` start a swing at frame 0 and `print` does not; a failed use changes nothing |
| `Players.UseSkillTwiceFiresOnce` | entities/player.py:128-139 | a second use straight after the first fires nothing |
| `Players.AttackRect` | entities/player.py:141-158 | the 80×60 reach box exists exactly while swinging; it sits flush against the facing side at the fighter's height and never overlaps the fighter's own body |
| `Players.TakeDamage` | entities/player.py:160-164 | health drops by the damage and is floored at 0; knockback becomes 15 × direction; nothing else changes |
| `Players.TakeDamageKeepsValid` | entities/player.py:160-164 | non-negative damage keeps health within [0, max] and never heals |
| `Players.Freeze` | entities/player.py:166-169 | a freeze (re)starts at the full 180 ticks and stops horizontal motion; a second freeze refreshes the timer and does not add to it |
| `Players.ReverseControls` | entities/player.py:171-174 | a reversal (re)starts at the full 600 ticks; a second one refreshes the timer and does not add to it |
| `PlayerTicks.UpdateKeepsValid` | entities/player.py:34-119 | every update keeps the fighter invariant: hp within [0, max], a swing frame within [0, 15], cooldown and timers within their durations and in step with their flags, no vertical speed on the ground, horizontal speed 0 or ±6, and none while frozen |
| `PlayerTicks.UpdateCountsDownReverse` | entities/player.py:35-40 | every update, frozen or not, lowers the reversal timer by one, and the reversal survives exactly when more than one tick was left |
| `PlayerTicks.FrozenUpdate` | entities/player.py:43-61 | a frozen update counts the freeze down and forces the horizontal speed to 0; x, cooldown, swing, knockback, facing and health are untouched; an airborne frozen fighter falls under gravity |
| `PlayerTicks.ActiveUpdateBounds` | entities/player.py:113-119 | after an unfrozen update 0 ≤ x ≤ WIDTH − width, and a fighter that ended below the arena floor has 0 hp while any other keeps the health it had |
| `PlayerTicks.ActiveUpdateVertical` | entities/player.py:95-111 | the vertical speed is the jump power (from the ground) or the old speed, plus gravity, unless a landing cancels it, which only happens while falling |
| `PlayerTicks.ActiveUpdateSwing` | entities/player.py:63-70 | an unfrozen update advances the swing by one frame or ends it after frame 15, and counts the cooldown down to 0 |
| `PlayerTicks.ReversedRightWalksLeft` | entities/player.py:79-91 | with controls reversed, holding only "right" walks left and turns the fighter to face left |
| `PlayerTicks.SwingingStandsStill` | entities/player.py:86-93 | a fighter mid-swing has no horizontal speed, whatever is held |
| `PlayerTicks.UpdateNeverAmplifiesKnockback` | entities/player.py:72-76 | no update increases the magnitude of knockback |
| `PlayerTicks.RunCountsDownReverse` | entities/player.py:35-40 | over any run of n updates the reversal timer drops to max(0, timer − n) and the invariant holds throughout |
| `PlayerTicks.RunCountsDownFreeze` | entities/player.py:43-61 | over any run no longer than the freeze, the freeze timer drops by one per update while x and the pending knockback stay as they were |
| `PlayerTicks.ReversalLastsItsDuration` | entities/player.py:171-174 | after a TypeError the reversal flag stays set through 599 updates and clears on the 600th (so 599 updates steer with swapped keys) |
| `PlayerTicks.FreezeLastsItsDuration` | entities/player.py:166-169 | after a Ctrl+C the fighter stays frozen for exactly 180 updates and does not move sideways meanwhile |
| `Bubbles.KindColour` | entities/bubble.py:14-25 | each kind has its own colour, and only kinds without one (the super bubble) are gray |
| `Bubbles.NewBubble` | entities/bubble.py:6-25 | a bubble starts active with radius 32, fall speed 2.5 and its kind's colour |
| `Bubbles.NewLoopBubble` | main.py:363-382 | main.py's bubble starts active with radius 25, fall speed 2 and its kind's colour |
| `Bubbles.Update` | entities/bubble.py:27-30 | a bubble falls by its speed, x unchanged, and is in play exactly while active and not below the arena |
| `Bubbles.InactiveStaysInactive` | entities/bubble.py:27-30 | a bubble out of play never comes back |
| `Bubbles.TouchWithinReach` | entities/bubble.py:74-77 | a touching bubble's centre is within radius + half body width of the body centre on each axis |
| `Bubbles.TouchesSameBody` | entities/bubble.py:74-77 | touching depends only on the fighter's position and size |
| `Projectiles.NewProjectile` | entities/projectile.py:5-13 | a shot starts active, with speed 10 × direction and 2 damage |
| `Projectiles.Update` | entities/projectile.py:15-18 | a shot moves by its speed, y unchanged, and stays in play exactly while active and within 50 px of the side walls |
| `Projectiles.HitBox` | entities/projectile.py:33 | the hit box is 60×30 and centred on the shot |
| `Projectiles.Hits` | entities/projectile.py:29-35 | a shot never hits its owner, and hits anyone else exactly when its box strictly overlaps their body |
| `Projectiles.HitsSameBody` | entities/projectile.py:29-35 | hitting depends only on the fighter's position and size |
| `Projectiles.PushDirection` | game/game_state.py:102 | the knockback handed to the target is ±10, signed like the flight direction |
| `Collision.PushApart` | game/collision.py:4-19 | it reports a collision exactly when the bodies strictly overlap; without one nothing changes; with one the fighters move apart in x by opposite amounts |
| `Collision.PushApartMoves` | game/collision.py:11-16 | only x changes, by 2 px each in opposite directions; the first goes left exactly when it is strictly left of the second; the sum of the x positions is kept |
| `Collision.PushApartWidensGap` | utils/helpers.py:7-12 | every push widens the horizontal gap by exactly 4 px; on a tie the first ends 4 px right of the second |
| `Collision.PushApartSymmetric` | utils/helpers.py:1-15 | away from a tie, the push does not depend on which fighter is named first |
| `Collision.AttackHit` | game/collision.py:22-33 | a hit needs a swing; the defender must then strictly overlap the 80×60 box on the facing side |
| `GameStates.NewRound` | game/game_state.py:12-23 | a new round has no bubbles or projectiles, a zero timer, no winner, no score screen and no remembered skills, and satisfies the round invariant |
| `GameStates.Reset` | game/game_state.py:25-34 | reset empties both lists and clears the timer, the end-of-round flags and the remembered skills, and keeps fighters and platforms |
| `GameStates.ResetIsFreshRound` | game/game_state.py:25-34 | a reset round equals a new round over the same fighters and platforms; reset is idempotent and keeps the round invariant |
| `GameStates.StateSpawnKind` | game/game_state.py:42-54 | the kind is a total step function of rand: pow below 0.20, delete to 0.32, print to 0.52, super to 0.62, Ctrl+C to 0.80, TypeError above |
| `GameStates.SpawnTick` | game/game_state.py:38-56 | every tick counts the timer up; on reaching 150 exactly one bubble is appended and the timer restarts at 0; the timer stays in [0, 150) |
| `GameStates.SpawnBubble` | game/game_state.py:36-56 | a new bubble appears exactly when the interval is reached, at y = −50 and x in [100, WIDTH − 100], and the timer restarts at 0; otherwise the list is unchanged and the timer counts up by one; the round invariant is kept |
| `GameStates.Pickup` | game/game_state.py:66-91 | a skill bubble fills an empty slot and leaves a fighter who already holds a skill exactly as it was; Ctrl+C is exactly `freeze` (stopping horizontal motion) and TypeError exactly `reverse_controls`, each followed by `take_damage(3, 0)` under game_state.py and by nothing in main.py; only a super bubble under game_state.py faults, and in main.py it changes nothing; the fighter is never moved or healed and keeps its invariant |
| `GameStates.ResolveBubble` | game/game_state.py:60-92 | a bubble out of play is dropped with no effect; player 1 is checked first; a touching bubble gives the first fighter it touches that fighter's pickup (and faults exactly when that pickup does), leaves the other fighter alone and is used up; a bubble in play that touches neither fighter stays, with both fighters unchanged, and never faults |
| `GameStates.SweepBubbles` | game/game_state.py:60-92 | the bubble pass faults only under game_state.py's rules and only when some bubble in the list is a super bubble |
| `GameStates.LoopSweepSucceeds` | main.py:770-787 | main.py's bubble pass never faults |
| `GameStates.SweepBubblesKeepsFighters` | game/game_state.py:58-92 | a bubble pass moves no fighter, never replaces a held skill, never heals, keeps the fighter invariant, and under main.py's rules costs no health |
| `GameStates.SweepBubblesKeepsExactlyTheUntouched` | game/game_state.py:58-92 | after a successful sweep the bubbles still in play are exactly this tick's fallen bubbles that are in the arena and touch neither fighter, in their original order |
| `GameStates.SweepBubblesKeptFallen` | game/game_state.py:60-63 | the surviving bubbles are a sub-multiset of this tick's fallen bubbles, and there are no more of them |
| `GameStates.SweepBubblesKeptClear` | game/game_state.py:60-92 | every surviving bubble is in play and touches neither fighter as they stand after the pass |
| `GameStates.SweepBubblesBodies` | game/game_state.py:65-92 | pickups never move a fighter |
| `GameStates.UpdateBubbles` | game/game_state.py:58-92 | the bubble update touches only the fighters and the bubble list, and never lengthens the list |
| `GameStates.UpdateBubblesKeepsRoundValid` | game/game_state.py:58-92 | a bubble update that does not fault keeps the round invariant |
| `GameStates.ResolveShot` | game/game_state.py:97-108 | a shot hits at most one fighter, never its owner, tries player 1 first; a shot in play that hits player 1 deals its damage to player 1 with ±10 knockback, and one that misses player 1 but hits player 2 does the same to player 2; a hit or out-of-play shot is removed, any other stays |
| `GameStates.SweepShots` | game/game_state.py:96-108 | the projectile pass never leaves more shots than it started with |
| `GameStates.SweepShotsSparesOwner` | game/game_state.py:101-108 | shots all owned by one fighter never change that fighter |
| `GameStates.SweepShotsKeepsFighters` | game/game_state.py:94-108 | a projectile pass moves no fighter, never heals, and keeps the fighter invariant |
| `GameStates.SweepShotsBodies` | game/game_state.py:94-108 | shots never move a fighter |
| `GameStates.SweepShotsKeepsExactlyTheMisses` | game/game_state.py:94-108 | the shots still in flight are exactly this tick's moved shots that are in play and hit neither fighter, in their original order |
| `GameStates.SweepShotsKeptFlown` | game/game_state.py:96-99 | the surviving shots are a sub-multiset of this tick's moved shots |
| `GameStates.SweepShotsKeptClear` | game/game_state.py:94-108 | every surviving shot is in play, has non-negative damage and hits neither fighter |
| `GameStates.UpdateProjectiles` | game/game_state.py:94-108 | the projectile update touches only the fighters and the projectile list |
| `GameStates.UpdateProjectilesKeepsRoundValid` | game/game_state.py:94-108 | a projectile update keeps the round invariant and never adds a shot |
| `GameStates.CheckGameOver` | game/game_state.py:110-117 | player 1's knock-out is checked first, so a double knock-out is a win for player 2; a finished round stays finished; only the two end-of-round fields change |
| `MainLoop.Muzzle` | main.py:683-686 | a `print` shot leaves the facing edge of the caster at half height, flies at 10 px per tick the way the caster faces, and belongs to the caster |
| `MainLoop.PressAttack` | main.py:677-696 | an attack press fires the held skill only when one is held and off cooldown, remembers it, spawns exactly one shot for `print`, and leaves the other fighter, the rest of the round and the score screen alone; the firer becomes exactly what `use_skill` makes of it (slot emptied, cooldown restarted, a swing started for `pow`/`delete`); otherwise nothing changes |
| `MainLoop.PressTwiceFiresOnce` | main.py:677-696 | a second press in the same frame changes nothing, so two presses fire at most one skill and add at most one shot |
| `MainLoop.PressAttackKeepsRoundValid` | main.py:677-696 | an attack press keeps the round invariant |
| `MainLoop.HandleEvents` | main.py:668-696 | once the round is over key presses do nothing; presses never touch platforms, bubbles, the spawn timer, the result or the score screen |
| `MainLoop.HandleEventsInOrder` | main.py:668-696 | while the round runs, a single attack press is exactly that fighter's `PressAttack` and any other key does nothing; a frame's events are handled one after another in order |
| `MainLoop.HandleEventsSparesIdle` | main.py:677-696 | a fighter whose attack key is not pressed in the frame keeps its state and its remembered skill |
| `MainLoop.HandleEventsFiresOncePerFighter` | main.py:677-696 | presses never remove a shot, and each fighter fires at most once per frame however often its key is pressed: each fighter adds at most one shot of its own if it holds a skill off cooldown and none otherwise, two in all |
| `MainLoop.HandleEventsKeepsRoundValid` | main.py:668-696 | a frame's key presses keep the round invariant |
| `MainLoop.Melee` | main.py:712-728 | melee lands only on frame 5 of an unfrozen swing and only when the reach box hits; `pow` deals 8 with knockback in the facing direction, and `delete` empties the defender's slot; a landed hit forgets the remembered skill; `print` never lands |
| `MainLoop.MeleeLandsOnce` | main.py:713-719 | checking the same swing again after it landed changes nothing |
| `MainLoop.DeleteHitSparesHealth` | main.py:717-719 | a `delete` hit costs no health |
| `MainLoop.ResolveMelee` | main.py:712-728 | melee changes only the defender and the attacker's remembered skill |
| `MainLoop.ResolveMeleeKeepsValid` | main.py:712-728 | melee keeps both fighters' invariant |
| `MainLoop.LoopSpawnKind` | main.py:750-760 | the kind is a total step function of rand: pow below 0.25, delete to 0.40, print to 0.65, Ctrl+C to 0.85, TypeError above; never super |
| `MainLoop.LoopSpawn` | main.py:746-762 | main.py's spawner appends exactly one of its own bubbles when the interval is reached and restarts the timer; otherwise the list is unchanged; the round invariant is kept |
| `MainLoop.LoopBubbles` | main.py:765-787 | main.py's bubble pass touches only fighters and bubbles, costs no health and never lengthens the list |
| `MainLoop.LoopSweepKeepsHealth` | main.py:770-787 | a successful sweep under main.py's rules leaves both fighters' health unchanged, whatever their state |
| `MainLoop.LoopBubblesHarmless` | main.py:770-787 | main.py's pickups never fault and cost no health |
| `MainLoop.LoopBubblesKeepsRoundValid` | main.py:765-787 | main.py's bubble pass keeps the round invariant |
| `MainLoop.MoveAll` | main.py:702-703 | every platform takes exactly one tick, in place |
| `MainLoop.MoveAllKeepsOscillating` | main.py:702-703 | moving the platforms keeps each inside its band |
| `MainLoop.Brawl` | main.py:701-728 | the movement and melee part of a frame moves the platforms and changes only fighters and remembered skills besides |
| `MainLoop.PushApartKeepsValid` | main.py:709 | push-apart keeps both fighters' invariant |
| `MainLoop.BrawlKeepsFighters` | main.py:701-728 | platforms, both updates, push-apart and both melee checks keep both fighters' invariant |
| `MainLoop.BrawlKeepsRoundValid` | main.py:701-728 | the movement and melee part of a frame keeps the round invariant |
| `MainLoop.Simulate` | main.py:698-795 | a finished round is skipped entirely; a live frame moves every platform one tick, and ends the round exactly when a fighter has no health left, with player 2 the winner exactly when player 1 is down |
| `MainLoop.Step` | main.py:665-795 | a frame of a finished round changes nothing; a frame of a live round moves every platform exactly one tick |
| `MainLoop.FinishedRoundIsFrozen` | main.py:698 | once the round is over a frame changes nothing at all |
| `MainLoop.FrameDecidesWinner` | main.py:789-795 | after a live frame the round is over exactly when a fighter has no health left; player 2 wins exactly when player 1 is down, and a finished round always has a winner |
| `MainLoop.StepKeepsRoundValid` | main.py:665-795 | every frame keeps the round invariant |

## Left out

- Rendering: every `draw` method, the UI, the score screen, the background animations and the
  camera and avatar loading. They only read the state or wrap libraries that are not modelled.
- The event loop's quit, Escape and restart-on-Space handling (main.py:669-675), and
  `clock.tick`. Those end or restart the program rather than step it.
- pygame.Rect integer truncation in `Projectile.check_collision` (entities/projectile.py:33-34).
  `Projectiles.Hits` compares exact real coordinates, so a shot at a fractional position may hit
  where the truncated rectangles would not, and the reverse.
- `Projectiles.Hits`: weaker than the source at fractional coordinates, for the reason above.
- The super form: `is_super` and `activate_super` are not defined anywhere in `Player`. Under
  game_state.py a super pickup is therefore the fault `SuperFormUndefined`, and no super-form
  behaviour is invented.
- Breakable platforms and debris: world/level.py passes `is_breakable`, which `KeyPlatform`
  does not accept. world/level.py is not part of this model.
- The control key maps (player.py:79-80 and 95, main.py:678 and 688) are abstracted: each
  fighter's held movement keys arrive as a `Keys` record and each attack-key press as an `Event`.
- `GameStates.SpawnBubble`: `spawn_bubble` takes the arena width as a parameter
  (game/game_state.py:36), and no caller of it is part of this model; the model fixes it to
  the arena width `WIDTH` of settings.py, which is the width the spawn range is meant for.
- `attack_power`, the player colours and the bubble and projectile label
  text: none of them is read by the simulation.
- The arena platform layout of `create_keyboard_platforms` (main.py:579-603): it is data only.
  The model takes any list of platforms.
- Floating-point rounding: positions are exact reals.
- Randomness: the spawn position and the kind draw are parameters. `GameStates.SpawnBubble` and
  `MainLoop.LoopSpawn` require the position to lie in randint's range.
- `Players.Update`: its own contract only says what an update never changes. What it does is
  stated by the `PlayerTicks` lemmas.

=== FILE: bubble.dfy ===
/** The falling pickup bubbles of entities/bubble.py (and the smaller, slower copy in main.py). */
module Bubbles {
  import opened Settings
  import opened Players

  /** What a bubble carries: one of the three skills, or an effect. The source spells these
      as the strings 'pow', 'delete', 'print', 'super', 'ctrlc' and 'typeerror'. */
  datatype BubbleKind = Grant(skill: Skill) | Super | CtrlC | TypeError

  datatype Bubble = Bubble(x: real, y: real, size: nat, velY: real, kind: BubbleKind, active: bool, colour: Colour)

  /** entities/bubble.py's radius and fall speed. */
  const BUBBLE_SIZE: nat := 32
  const BUBBLE_SPEED: real := 2.5
  /** main.py's own Bubble class is smaller and slower. */
  const LOOP_BUBBLE_SIZE: nat := 25
  const LOOP_BUBBLE_SPEED: real := 2.0

  /** The colour a bubble is drawn in; a kind with no colour of its own (the super bubble) is gray. */
  function KindColour(k: BubbleKind): (c: Colour)
    ensures c == GRAY <==> k == Super
    ensures c == ORANGE <==> k == Grant(Pow)
    ensures c == RED <==> k == Grant(Delete)
    ensures c == YELLOW <==> k == Grant(Print)
    ensures c == CYAN <==> k == CtrlC
    ensures c == DARK_RED <==> k == TypeError
  {
    match k
    case Grant(Pow) => ORANGE
    case Grant(Delete) => RED
    case Grant(Print) => YELLOW
    case CtrlC => CYAN
    case TypeError => DARK_RED
    case Super => GRAY
  }

  /** `Bubble(x, y, type)` of entities/bubble.py. */
  function NewBubble(x: real, y: real, kind: BubbleKind): (r: Bubble)
    ensures r.x == x && r.y == y && r.kind == kind && r.active
    ensures r.size == 32 && r.velY == 2.5
    ensures r.colour == KindColour(kind)
  {
    Bubble(x, y, BUBBLE_SIZE, BUBBLE_SPEED, kind, true, KindColour(kind))
  }

  /** `Bubble(x, y, type)` of main.py. */
  function NewLoopBubble(x: real, y: real, kind: BubbleKind): (r: Bubble)
    ensures r.x == x && r.y == y && r.kind == kind && r.active
    ensures r.size == 25 && r.velY == 2.0
    ensures r.colour == KindColour(kind)
  {
    Bubble(x, y, LOOP_BUBBLE_SIZE, LOOP_BUBBLE_SPEED, kind, true, KindColour(kind))
  }

  /** One tick of fall: straight down, and out of play once below the arena. */
  function Update(b: Bubble): (r: Bubble)
    ensures r == b.(y := r.y, active := r.active)
    ensures r.y == b.y + b.velY
    ensures r.active <==> b.active && r.y <= HEIGHT as real
  {
    var y := b.y + b.velY;
    if y > HEIGHT as real then b.(y := y, active := false) else b.(y := y)
  }

  /** Out of play stays out of play. */
  lemma InactiveStaysInactive(b: Bubble)
    requires !b.active
    ensures !Update(b).active
  {
  }

  /** `check_collision`: the bubble centre lies closer to the body centre than the bubble radius
      plus half the body width. Both sides are non-negative, so comparing squares is exact. */
  predicate Touches(b: Bubble, p: Player) {
    var dx := b.x - (p.x + (p.width / 2) as real);
    var dy := b.y - (p.y + (p.height / 2) as real);
    var reach := (b.size + p.width / 2) as real;
    dx * dx + dy * dy < reach * reach
  }

  /** A touching bubble's centre is within reach of the body centre along each axis. */
  lemma TouchWithinReach(b: Bubble, p: Player)
    requires Touches(b, p)
    ensures var reach := (b.size + p.width / 2) as real;
      && -reach < b.x - (p.x + (p.width / 2) as real) < reach
      && -reach < b.y - (p.y + (p.height / 2) as real) < reach
  {
    var dx := b.x - (p.x + (p.width / 2) as real);
    var dy := b.y - (p.y + (p.height / 2) as real);
    var reach := (b.size + p.width / 2) as real;
    assert dx * dx < reach * reach by {
      assert dy * dy >= 0.0;
    }
    assert dy * dy < reach * reach by {
      assert dx * dx >= 0.0;
    }
    SquareBound(dx, reach);
    SquareBound(dy, reach);
  }

  lemma SquareBound(d: real, reach: real)
    requires reach >= 0.0 && d * d < reach * reach
    ensures -reach < d < reach
  {
  }

  /** Touching depends only on where the body is. */
  lemma TouchesSameBody(b: Bubble, p: Player, q: Player)
    requires SameBody(p, q)
    ensures Touches(b, p) <==> Touches(b, q)
  {
  }
}

=== FILE: collision.dfy ===
/** The fighter-versus-fighter helpers of game/collision.py, duplicated verbatim in utils/helpers.py. */
module Collision {
  import opened Wrappers
  import opened Geometry
  import opened Players

  /** How far each fighter is pushed when their bodies overlap. */
  const PUSH: real := 2.0

  datatype Contact = Contact(collided: bool, first: Player, second: Player)

  /** The signed distance the first fighter moves when the two collide. */
  function Shift(a: Player, b: Player): real {
    if a.x < b.x then -PUSH else PUSH
  }

  /** `check_player_collision(p1, p2)`: on overlap, each fighter moves 2 pixels away from the other
      (the first goes left when strictly left of the second, right otherwise). */
  function PushApart(a: Player, b: Player): (r: Contact)
    ensures r.collided <==> Overlaps(Body(a), Body(b))
    ensures !r.collided ==> r.first == a && r.second == b
    ensures r.collided ==> r.first == a.(x := a.x + Shift(a, b)) && r.second == b.(x := b.x - Shift(a, b))
  {
    if Overlaps(Body(a), Body(b)) then
      Contact(true, a.(x := a.x + Shift(a, b)), b.(x := b.x - Shift(a, b)))
    else Contact(false, a, b)
  }

  /** A collision moves only the x of each fighter, by 2 pixels in opposite directions: the first
      goes left exactly when it is strictly left of the second, so on a tie it goes right.
      The sum of the two positions is kept, and y never changes. */
  lemma PushApartMoves(a: Player, b: Player)
    ensures var r := PushApart(a, b);
      && r.first == a.(x := r.first.x) && r.second == b.(x := r.second.x)
      && r.first.x + r.second.x == a.x + b.x
      && (r.collided ==> (r.first.x < a.x <==> a.x < b.x))
      && (r.collided ==> r.first.x == a.x - PUSH || r.first.x == a.x + PUSH)
  {
  }

  /** Every push widens the horizontal gap between the two fighters by exactly 4 pixels,
      whichever side each is on (on a tie, the first ends 4 pixels right of the second). */
  lemma PushApartWidensGap(a: Player, b: Player)
    requires Overlaps(Body(a), Body(b))
    ensures Abs(PushApart(a, b).first.x - PushApart(a, b).second.x) == Abs(a.x - b.x) + 2.0 * PUSH
    ensures a.x == b.x ==> PushApart(a, b).first.x - PushApart(a, b).second.x == 2.0 * PUSH
  {
  }

  /** Away from a tie, the push does not depend on which fighter is named first. */
  lemma PushApartSymmetric(a: Player, b: Player)
    requires a.x != b.x
    ensures PushApart(b, a) == Contact(PushApart(a, b).collided, PushApart(a, b).second, PushApart(a, b).first)
  {
    OverlapsSymmetric(Body(a), Body(b));
  }

  /** `check_attack_hit(attacker, defender)`: the defender's body strictly overlaps the 80x60 reach
      box in front of a swinging attacker. */
  function AttackHit(attacker: Player, defender: Player): (r: bool)
    ensures !attacker.isAttacking ==> !r
    ensures attacker.isAttacking ==>
      (r <==> && defender.y < attacker.y + ATTACK_HEIGHT
              && attacker.y < defender.y + defender.height as real
              && (if attacker.facingRight
                  then defender.x < attacker.x + attacker.width as real + ATTACK_WIDTH
                       && attacker.x + attacker.width as real < defender.x + defender.width as real
                  else defender.x < attacker.x
                       && attacker.x - ATTACK_WIDTH < defender.x + defender.width as real))
  {
    match AttackRect(attacker)
    case None => false
    case Some(reach) => Overlaps(Body(defender), reach)
  }
}

=== FILE: game_state.dfy ===
/** The round bookkeeping of game/game_state.py: bubble spawning and pickups, projectile hits,
    the win check and reset. The per-list sweeps are shared with the loop in main.py, whose
    pickups differ; `Rules` says which copy is meant. */
module GameStates {
  import opened Wrappers
  import opened Settings
  import opened Players
  import Platforms
  import Bubbles
  import Projectiles

  /** The pickup of a super bubble under game_state.py reads `is_super` and calls `activate_super`,
      neither of which the Player class defines: the pickup stops the program. */
  datatype Fault = SuperFormUndefined

  /** game_state.py's `GameState`, or the copy of its logic inlined in main.py. */
  datatype Rules = StateRules | LoopRules

  datatype RoundState = RoundState(
    p1: Player, p2: Player,
    platforms: seq<Platforms.Platform>,
    bubbles: seq<Bubbles.Bubble>,
    projectiles: seq<Projectiles.Projectile>,
    bubbleTimer: int,
    gameOver: bool,
    winner: Option<PlayerId>,
    scoreShown: bool,
    lastP1Skill: Option<Skill>,
    lastP2Skill: Option<Skill>)

  /** Chip damage of a Ctrl+C or TypeError pickup under game_state.py. */
  const PICKUP_DAMAGE: int := 3
  /** Bubbles appear this far above the top of the arena, at least this far from either side wall. */
  const SPAWN_Y: real := -50.0
  const SPAWN_MARGIN: int := 100

  /** What holds between ticks. */
  predicate RoundValid(s: RoundState) {
    && Valid(s.p1) && Valid(s.p2)
    && 0 <= s.bubbleTimer < BUBBLE_SPAWN_TIME
    && (s.gameOver <==> s.winner.Some?)
    && (forall i :: 0 <= i < |s.bubbles| ==> s.bubbles[i].active)
    && (forall i :: 0 <= i < |s.projectiles| ==> s.projectiles[i].active && s.projectiles[i].damage >= 0)
    && (forall i :: 0 <= i < |s.platforms| ==> Platforms.Oscillating(s.platforms[i]))
  }

  function PlayerOf(s: RoundState, id: PlayerId): Player {
    if id == P1 then s.p1 else s.p2
  }

  function WithPlayer(s: RoundState, id: PlayerId, p: Player): (r: RoundState)
    ensures PlayerOf(r, id) == p && PlayerOf(r, Other(id)) == PlayerOf(s, Other(id))
  {
    if id == P1 then s.(p1 := p) else s.(p2 := p)
  }

  function LastSkillOf(s: RoundState, id: PlayerId): Option<Skill> {
    if id == P1 then s.lastP1Skill else s.lastP2Skill
  }

  function WithLastSkill(s: RoundState, id: PlayerId, k: Option<Skill>): (r: RoundState)
    ensures LastSkillOf(r, id) == k && LastSkillOf(r, Other(id)) == LastSkillOf(s, Other(id))
  {
    if id == P1 then s.(lastP1Skill := k) else s.(lastP2Skill := k)
  }

  /** `GameState(player1, player2, platforms)`. */
  function NewRound(p1: Player, p2: Player, platforms: seq<Platforms.Platform>): (r: RoundState)
    ensures r.p1 == p1 && r.p2 == p2 && r.platforms == platforms
    ensures r.bubbles == [] && r.projectiles == [] && r.bubbleTimer == 0
    ensures !r.gameOver && r.winner == None && !r.scoreShown && r.lastP1Skill == None && r.lastP2Skill == None
    ensures Valid(p1) && Valid(p2) && (forall i :: 0 <= i < |platforms| ==> Platforms.Oscillating(platforms[i]))
            ==> RoundValid(r)
  {
    RoundState(p1, p2, platforms, [], [], 0, false, None, false, None, None)
  }

  /** `reset`: clears the collections, the spawn timer, the end-of-round flags and the remembered
      skills, and keeps the fighters and platforms as they are. */
  function Reset(s: RoundState): (r: RoundState)
    ensures r.p1 == s.p1 && r.p2 == s.p2 && r.platforms == s.platforms
    ensures r.bubbles == [] && r.projectiles == [] && r.bubbleTimer == 0
    ensures !r.gameOver && r.winner == None && !r.scoreShown
    ensures r.lastP1Skill == None && r.lastP2Skill == None
  {
    s.(bubbles := [], projectiles := [], bubbleTimer := 0, gameOver := false, winner := None,
       scoreShown := false, lastP1Skill := None, lastP2Skill := None)
  }

  /** A reset round is a fresh round over the same fighters and platforms; resetting twice is resetting once. */
  lemma ResetIsFreshRound(s: RoundState)
    ensures Reset(s) == NewRound(s.p1, s.p2, s.platforms)
    ensures Reset(Reset(s)) == Reset(s)
    ensures Valid(s.p1) && Valid(s.p2) && RoundValid(s) ==> RoundValid(Reset(s))
  {
  }

  /** The bubble kind game_state.py draws from a uniform `rand` in [0, 1):
      pow 20%, delete 12%, print 20%, super 10%, ctrlc 18%, typeerror 20%. */
  function StateSpawnKind(rand: real): (k: Bubbles.BubbleKind)
    ensures k == Bubbles.Grant(Pow) <==> rand < 0.20
    ensures k == Bubbles.Grant(Delete) <==> 0.20 <= rand < 0.32
    ensures k == Bubbles.Grant(Print) <==> 0.32 <= rand < 0.52
    ensures k == Bubbles.Super <==> 0.52 <= rand < 0.62
    ensures k == Bubbles.CtrlC <==> 0.62 <= rand < 0.80
    ensures k == Bubbles.TypeError <==> 0.80 <= rand
  {
    if rand < 0.20 then Bubbles.Grant(Pow)
    else if rand < 0.32 then Bubbles.Grant(Delete)
    else if rand < 0.52 then Bubbles.Grant(Print)
    else if rand < 0.62 then Bubbles.Super
    else if rand < 0.80 then Bubbles.CtrlC
    else Bubbles.TypeError
  }

  /** The spawn-timer step shared by both copies: count one tick, and when the interval is reached
      drop `newcomer` into play and restart the count. */
  function SpawnTick(s: RoundState, newcomer: Bubbles.Bubble): (r: RoundState)
    ensures r == s.(bubbles := r.bubbles, bubbleTimer := r.bubbleTimer)
    ensures s.bubbleTimer + 1 >= BUBBLE_SPAWN_TIME ==> r.bubbles == s.bubbles + [newcomer] && r.bubbleTimer == 0
    ensures s.bubbleTimer + 1 < BUBBLE_SPAWN_TIME ==> r.bubbles == s.bubbles && r.bubbleTimer == s.bubbleTimer + 1
    ensures 0 <= s.bubbleTimer < BUBBLE_SPAWN_TIME ==> 0 <= r.bubbleTimer < BUBBLE_SPAWN_TIME
  {
    var t := s.bubbleTimer + 1;
    if t >= BUBBLE_SPAWN_TIME then s.(bubbles := s.bubbles + [newcomer], bubbleTimer := 0)
    else s.(bubbleTimer := t)
  }

  /** `spawn_bubble`: `x` is the random integer drawn in [100, WIDTH - 100] and `rand` the uniform draw. */
  function SpawnBubble(s: RoundState, x: int, rand: real): (r: RoundState)
    requires SPAWN_MARGIN <= x <= WIDTH - SPAWN_MARGIN
    ensures r == s.(bubbles := r.bubbles, bubbleTimer := r.bubbleTimer)
    ensures |r.bubbles| == |s.bubbles| || r.bubbles == s.bubbles + [Bubbles.NewBubble(x as real, SPAWN_Y, StateSpawnKind(rand))]
    ensures |r.bubbles| > |s.bubbles| <==> s.bubbleTimer + 1 >= BUBBLE_SPAWN_TIME
    ensures |r.bubbles| > |s.bubbles| ==> r.bubbleTimer == 0
    ensures s.bubbleTimer + 1 < BUBBLE_SPAWN_TIME ==> r.bubbles == s.bubbles && r.bubbleTimer == s.bubbleTimer + 1
    ensures forall i :: |s.bubbles| <= i < |r.bubbles| ==>
      SPAWN_MARGIN as real <= r.bubbles[i].x <= (WIDTH - SPAWN_MARGIN) as real
    ensures RoundValid(s) ==> RoundValid(r)
  {
    SpawnTick(s, Bubbles.NewBubble(x as real, SPAWN_Y, StateSpawnKind(rand)))
  }

  /** The effect of touching a bubble. A skill bubble fills an empty slot only; Ctrl+C freezes and
      TypeError reverses the controls, each with 3 chip damage under game_state.py and none in main.py;
      a super bubble faults under game_state.py and has no effect in main.py. */
  function Pickup(rules: Rules, p: Player, kind: Bubbles.BubbleKind): (r: Result<Player, Fault>)
    ensures r.Failure? <==> rules == StateRules && kind == Bubbles.Super
    ensures r.Success? ==> SameBody(r.value, p)
    ensures r.Success? && p.skill.Some? ==> r.value.skill == p.skill
    ensures r.Success? && kind.Grant? && p.skill.None? ==> r.value == p.(skill := Some(kind.skill))
    ensures kind.Grant? && p.skill.Some? ==> r == Success(p)
    ensures r.Success? && p.hp >= 0 ==> 0 <= r.value.hp <= p.hp
    ensures r.Success? && (rules == LoopRules || kind.Grant?) ==> r.value.hp == p.hp
    ensures rules == StateRules && (kind == Bubbles.CtrlC || kind == Bubbles.TypeError) ==>
      r.value.hp == (if p.hp < PICKUP_DAMAGE then 0 else p.hp - PICKUP_DAMAGE) && r.value.knockbackX == 0.0
    ensures kind == Bubbles.CtrlC ==> r.value.isFrozen && r.value.freezeTimer == FREEZE_DURATION && r.value.velX == 0.0
    ensures rules == LoopRules && kind == Bubbles.CtrlC ==> r == Success(Freeze(p))
    ensures rules == LoopRules && kind == Bubbles.TypeError ==> r == Success(ReverseControls(p))
    ensures rules == StateRules && kind == Bubbles.CtrlC ==> r == Success(TakeDamage(Freeze(p), PICKUP_DAMAGE, 0))
    ensures rules == StateRules && kind == Bubbles.TypeError ==>
      r == Success(TakeDamage(ReverseControls(p), PICKUP_DAMAGE, 0))
    ensures rules == LoopRules && kind == Bubbles.Super ==> r == Success(p)
    ensures kind == Bubbles.TypeError ==> r.value.isReversed && r.value.reverseTimer == REVERSED_DURATION
    ensures r.Success? && Valid(p) ==> Valid(r.value)
  {
    match kind
    case Grant(k) => Success(if p.skill.None? then p.(skill := Some(k)) else p)
    case Super => if rules == StateRules then Failure(SuperFormUndefined) else Success(p)
    case CtrlC =>
      var frozen := Freeze(p);
      Success(if rules == StateRules then TakeDamage(frozen, PICKUP_DAMAGE, 0) else frozen)
    case TypeError =>
      var reversed := ReverseControls(p);
      Success(if rules == StateRules then TakeDamage(reversed, PICKUP_DAMAGE, 0) else reversed)
  }

  /** The fighters after a sweep over the bubbles, and the bubbles still in play. */
  datatype BubbleSweep = BubbleSweep(p1: Player, p2: Player, kept: seq<Bubbles.Bubble>)

  /** One bubble after its fall: gone if it left the arena; otherwise player 1 is checked first,
      and a bubble touching a fighter is used up whether or not its effect applied. */
  function ResolveBubble(rules: Rules, p1: Player, p2: Player, b: Bubbles.Bubble): (r: Result<BubbleSweep, Fault>)
    ensures r.Success? && !b.active ==> r.value == BubbleSweep(p1, p2, [])
    ensures r.Success? && b.active && Bubbles.Touches(b, p1) ==> r.value.p2 == p2 && r.value.kept == []
    ensures r.Success? && b.active && !Bubbles.Touches(b, p1) && Bubbles.Touches(b, p2) ==>
      r.value.p1 == p1 && r.value.kept == []
    ensures r.Success? && b.active && !Bubbles.Touches(b, p1) && !Bubbles.Touches(b, p2) ==>
      r.value == BubbleSweep(p1, p2, [b])
    ensures r.Failure? ==> rules == StateRules && b.kind == Bubbles.Super && b.active
    ensures r.Failure? ==> Bubbles.Touches(b, p1) || Bubbles.Touches(b, p2)
    ensures !b.active ==> r == Success(BubbleSweep(p1, p2, []))
    ensures b.active && !Bubbles.Touches(b, p1) && !Bubbles.Touches(b, p2) ==> r == Success(BubbleSweep(p1, p2, [b]))
    ensures b.active && Bubbles.Touches(b, p1) ==>
      && (r.Success? <==> Pickup(rules, p1, b.kind).Success?)
      && (r.Success? ==> r.value.p1 == Pickup(rules, p1, b.kind).value)
    ensures b.active && !Bubbles.Touches(b, p1) && Bubbles.Touches(b, p2) ==>
      && (r.Success? <==> Pickup(rules, p2, b.kind).Success?)
      && (r.Success? ==> r.value.p2 == Pickup(rules, p2, b.kind).value)
  {
    if !b.active then Success(BubbleSweep(p1, p2, []))
    else if Bubbles.Touches(b, p1) then
      match Pickup(rules, p1, b.kind)
      case Success(q) => Success(BubbleSweep(q, p2, []))
      case Failure(e) => Failure(e)
    else if Bubbles.Touches(b, p2) then
      match Pickup(rules, p2, b.kind)
      case Success(q) => Success(BubbleSweep(p1, q, []))
      case Failure(e) => Failure(e)
    else Success(BubbleSweep(p1, p2, [b]))
  }

  /** Each bubble falls one step, in list order. */
  function FallAll(bs: seq<Bubbles.Bubble>): (r: seq<Bubbles.Bubble>)
    ensures |r| == |bs|
    ensures forall i :: 0 <= i < |bs| ==> r[i] == Bubbles.Update(bs[i])
  {
    seq(|bs|, i requires 0 <= i < |bs| => Bubbles.Update(bs[i]))
  }

  /** `update_bubbles`' loop: each bubble falls and is resolved against the fighters as they stand
      after the earlier bubbles. */
  function SweepBubbles(rules: Rules, p1: Player, p2: Player, bs: seq<Bubbles.Bubble>): (r: Result<BubbleSweep, Fault>)
    ensures r.Failure? ==> rules == StateRules && exists i :: 0 <= i < |bs| && bs[i].kind == Bubbles.Super
    decreases |bs|
  {
    if |bs| == 0 then Success(BubbleSweep(p1, p2, []))
    else
      match ResolveBubble(rules, p1, p2, Bubbles.Update(bs[0]))
      case Failure(e) => Failure(e)
      case Success(first) =>
        match SweepBubbles(rules, first.p1, first.p2, bs[1..])
        case Failure(e) => Failure(e)
        case Success(rest) => Success(BubbleSweep(rest.p1, rest.p2, first.kept + rest.kept))
  }

  /** main.py's pickups cannot fault. */
  lemma {:induction false} LoopSweepSucceeds(p1: Player, p2: Player, bs: seq<Bubbles.Bubble>)
    ensures SweepBubbles(LoopRules, p1, p2, bs).Success?
    decreases |bs|
  {
    if |bs| > 0 {
      var first := ResolveBubble(LoopRules, p1, p2, Bubbles.Update(bs[0]));
      LoopSweepSucceeds(first.value.p1, first.value.p2, bs[1..]);
    }
  }

  /** A bubble sweep leaves the fighters where they are, never takes away or replaces a held skill,
      keeps their invariant, never heals, and under main.py's rules never hurts. */
  lemma {:induction false} SweepBubblesKeepsFighters(rules: Rules, p1: Player, p2: Player, bs: seq<Bubbles.Bubble>)
    requires Valid(p1) && Valid(p2)
    ensures var r := SweepBubbles(rules, p1, p2, bs);
      r.Success? ==>
        && SameBody(r.value.p1, p1) && SameBody(r.value.p2, p2)
        && Valid(r.value.p1) && Valid(r.value.p2)
        && (p1.skill.Some? ==> r.value.p1.skill == p1.skill)
        && (p2.skill.Some? ==> r.value.p2.skill == p2.skill)
        && r.value.p1.hp <= p1.hp && r.value.p2.hp <= p2.hp
        && (rules == LoopRules ==> r.value.p1.hp == p1.hp && r.value.p2.hp == p2.hp)
    decreases |bs|
  {
    if |bs| > 0 {
      var first := ResolveBubble(rules, p1, p2, Bubbles.Update(bs[0]));
      if first.Success? {
        SweepBubblesKeepsFighters(rules, first.value.p1, first.value.p2, bs[1..]);
      }
    }
  }

  /** The bubbles that stay in play are this tick's fallen bubbles, each at most once. */
  lemma {:induction false} SweepBubblesKeptFallen(rules: Rules, p1: Player, p2: Player, bs: seq<Bubbles.Bubble>)
    ensures var r := SweepBubbles(rules, p1, p2, bs);
      r.Success? ==> multiset(r.value.kept) <= multiset(FallAll(bs)) && |r.value.kept| <= |bs|
    decreases |bs|
  {
    var r := SweepBubbles(rules, p1, p2, bs);
    if |bs| > 0 && r.Success? {
      var first := ResolveBubble(rules, p1, p2, Bubbles.Update(bs[0])).value;
      SweepBubblesKeptFallen(rules, first.p1, first.p2, bs[1..]);
      assert FallAll(bs) == [Bubbles.Update(bs[0])] + FallAll(bs[1..]);
      SubMultisetSize(multiset(r.value.kept), multiset(FallAll(bs)));
    }
  }

  /** The bubbles that stay in play are in the arena and touch neither fighter. */
  lemma {:induction false} SweepBubblesKeptClear(rules: Rules, p1: Player, p2: Player, bs: seq<Bubbles.Bubble>)
    ensures var r := SweepBubbles(rules, p1, p2, bs);
      r.Success? ==>
        forall i :: 0 <= i < |r.value.kept| ==>
          && r.value.kept[i].active
          && !Bubbles.Touches(r.value.kept[i], r.value.p1)
          && !Bubbles.Touches(r.value.kept[i], r.value.p2)
    decreases |bs|
  {
    var r := SweepBubbles(rules, p1, p2, bs);
    if |bs| > 0 && r.Success? {
      var first := ResolveBubble(rules, p1, p2, Bubbles.Update(bs[0])).value;
      var rest := SweepBubbles(rules, first.p1, first.p2, bs[1..]).value;
      SweepBubblesKeptClear(rules, first.p1, first.p2, bs[1..]);
      SweepBubblesBodies(rules, first.p1, first.p2, bs[1..]);
      assert r.value.kept == first.kept + rest.kept;
      forall i | 0 <= i < |r.value.kept|
        ensures r.value.kept[i].active
        ensures !Bubbles.Touches(r.value.kept[i], r.value.p1) && !Bubbles.Touches(r.value.kept[i], r.value.p2)
      {
        if i < |first.kept| {
          Bubbles.TouchesSameBody(first.kept[i], first.p1, rest.p1);
          Bubbles.TouchesSameBody(first.kept[i], first.p2, rest.p2);
        } else {
          assert r.value.kept[i] == rest.kept[i - |first.kept|];
        }
      }
    }
  }

  /** The bubbles of `bs` that are in play and touch neither fighter, in their order. */
  function Untouched(p1: Player, p2: Player, bs: seq<Bubbles.Bubble>): seq<Bubbles.Bubble>
    decreases |bs|
  {
    if |bs| == 0 then []
    else
      var b := bs[0];
      (if b.active && !Bubbles.Touches(b, p1) && !Bubbles.Touches(b, p2) then [b] else []) + Untouched(p1, p2, bs[1..])
  }

  /** Which bubbles are untouched depends only on where the fighters stand. */
  lemma {:induction false} UntouchedSameBody(p1: Player, p2: Player, o1: Player, o2: Player, bs: seq<Bubbles.Bubble>)
    requires SameBody(p1, o1) && SameBody(p2, o2)
    ensures Untouched(p1, p2, bs) == Untouched(o1, o2, bs)
    decreases |bs|
  {
    if |bs| > 0 {
      Bubbles.TouchesSameBody(bs[0], p1, o1);
      Bubbles.TouchesSameBody(bs[0], p2, o2);
      UntouchedSameBody(p1, p2, o1, o2, bs[1..]);
    }
  }

  /** A successful sweep keeps exactly the fallen bubbles that are still in the arena and touch
      neither fighter as they stood before the sweep, in their order. */
  lemma {:induction false} SweepBubblesKeepsExactlyTheUntouched(rules: Rules, p1: Player, p2: Player, bs: seq<Bubbles.Bubble>)
    ensures var r := SweepBubbles(rules, p1, p2, bs);
      r.Success? ==> r.value.kept == Untouched(p1, p2, FallAll(bs))
    decreases |bs|
  {
    var r := SweepBubbles(rules, p1, p2, bs);
    if |bs| > 0 && r.Success? {
      var b := Bubbles.Update(bs[0]);
      var first := ResolveBubble(rules, p1, p2, b).value;
      SweepBubblesKeepsExactlyTheUntouched(rules, first.p1, first.p2, bs[1..]);
      UntouchedSameBody(first.p1, first.p2, p1, p2, FallAll(bs[1..]));
      assert FallAll(bs)[1..] == FallAll(bs[1..]);
    }
  }

  lemma SubMultisetSize<T>(a: multiset<T>, b: multiset<T>)
    requires a <= b
    ensures |a| <= |b|
  {
    assert b == a + (b - a);
  }

  /** Pickups never move a fighter. */
  lemma {:induction false} SweepBubblesBodies(rules: Rules, p1: Player, p2: Player, bs: seq<Bubbles.Bubble>)
    ensures var r := SweepBubbles(rules, p1, p2, bs);
      r.Success? ==> SameBody(r.value.p1, p1) && SameBody(r.value.p2, p2)
    decreases |bs|
  {
    if |bs| > 0 {
      var first := ResolveBubble(rules, p1, p2, Bubbles.Update(bs[0]));
      if first.Success? {
        SweepBubblesBodies(rules, first.value.p1, first.value.p2, bs[1..]);
      }
    }
  }

  /** `update_bubbles`. */
  function UpdateBubbles(s: RoundState): (r: Result<RoundState, Fault>)
    ensures r.Success? ==> r.value == s.(p1 := r.value.p1, p2 := r.value.p2, bubbles := r.value.bubbles)
    ensures r.Success? ==> |r.value.bubbles| <= |s.bubbles|
  {
    var sweep := SweepBubbles(StateRules, s.p1, s.p2, s.bubbles);
    SweepBubblesKeptFallen(StateRules, s.p1, s.p2, s.bubbles);
    match sweep
    case Failure(e) => Failure(e)
    case Success(w) => Success(s.(p1 := w.p1, p2 := w.p2, bubbles := w.kept))
  }

  /** A successful bubble update keeps the round invariant. */
  lemma UpdateBubblesKeepsRoundValid(s: RoundState)
    requires RoundValid(s)
    ensures UpdateBubbles(s).Success? ==> RoundValid(UpdateBubbles(s).value)
  {
    SweepBubblesKeepsFighters(StateRules, s.p1, s.p2, s.bubbles);
    SweepBubblesKeptClear(StateRules, s.p1, s.p2, s.bubbles);
  }

  /** The fighters after a sweep over the projectiles, and the projectiles still in flight. */
  datatype ShotSweep = ShotSweep(p1: Player, p2: Player, kept: seq<Projectiles.Projectile>)

  /** One projectile after its move: gone if off screen; otherwise it hits player 1, else player 2,
      never its owner, and a hit shot is used up. */
  function ResolveShot(p1: Player, p2: Player, q: Projectiles.Projectile): (r: ShotSweep)
    ensures r.p1 == p1 || r.p2 == p2
    ensures q.owner == P1 ==> r.p1 == p1
    ensures q.owner == P2 ==> r.p2 == p2
    ensures r.p1 != p1 ==> r.p1 == TakeDamage(p1, q.damage, Projectiles.PushDirection(q))
    ensures r.p2 != p2 ==> r.p2 == TakeDamage(p2, q.damage, Projectiles.PushDirection(q))
    ensures r.kept == [] || (r.kept == [q] && r.p1 == p1 && r.p2 == p2)
    ensures r.kept == [q] <==> q.active && !Projectiles.Hits(q, P1, p1) && !Projectiles.Hits(q, P2, p2)
    ensures !q.active ==> r == ShotSweep(p1, p2, [])
    ensures q.active && Projectiles.Hits(q, P1, p1) ==>
      r == ShotSweep(TakeDamage(p1, q.damage, Projectiles.PushDirection(q)), p2, [])
    ensures q.active && !Projectiles.Hits(q, P1, p1) && Projectiles.Hits(q, P2, p2) ==>
      r == ShotSweep(p1, TakeDamage(p2, q.damage, Projectiles.PushDirection(q)), [])
  {
    if !q.active then ShotSweep(p1, p2, [])
    else if Projectiles.Hits(q, P1, p1) && q.owner != P1 then
      ShotSweep(TakeDamage(p1, q.damage, Projectiles.PushDirection(q)), p2, [])
    else if Projectiles.Hits(q, P2, p2) && q.owner != P2 then
      ShotSweep(p1, TakeDamage(p2, q.damage, Projectiles.PushDirection(q)), [])
    else ShotSweep(p1, p2, [q])
  }

  /** Each projectile moves one step, in list order. */
  function FlyAll(qs: seq<Projectiles.Projectile>): (r: seq<Projectiles.Projectile>)
    ensures |r| == |qs|
    ensures forall i :: 0 <= i < |qs| ==> r[i] == Projectiles.Update(qs[i])
  {
    seq(|qs|, i requires 0 <= i < |qs| => Projectiles.Update(qs[i]))
  }

  /** `update_projectiles`' loop. */
  function SweepShots(p1: Player, p2: Player, qs: seq<Projectiles.Projectile>): (r: ShotSweep)
    ensures |r.kept| <= |qs|
    decreases |qs|
  {
    if |qs| == 0 then ShotSweep(p1, p2, [])
    else
      var first := ResolveShot(p1, p2, Projectiles.Update(qs[0]));
      var rest := SweepShots(first.p1, first.p2, qs[1..]);
      ShotSweep(rest.p1, rest.p2, first.kept + rest.kept)
  }

  /** Shots never hurt their owner: if every shot belongs to one fighter, that fighter is untouched. */
  lemma {:induction false} SweepShotsSparesOwner(p1: Player, p2: Player, qs: seq<Projectiles.Projectile>, owner: PlayerId)
    requires forall i :: 0 <= i < |qs| ==> qs[i].owner == owner
    ensures owner == P1 ==> SweepShots(p1, p2, qs).p1 == p1
    ensures owner == P2 ==> SweepShots(p1, p2, qs).p2 == p2
    decreases |qs|
  {
    if |qs| > 0 {
      var first := ResolveShot(p1, p2, Projectiles.Update(qs[0]));
      SweepShotsSparesOwner(first.p1, first.p2, qs[1..], owner);
    }
  }

  /** A projectile sweep moves nobody, keeps the fighters' invariant and never heals. */
  lemma {:induction false} SweepShotsKeepsFighters(p1: Player, p2: Player, qs: seq<Projectiles.Projectile>)
    requires Valid(p1) && Valid(p2)
    requires forall i :: 0 <= i < |qs| ==> qs[i].damage >= 0
    ensures var r := SweepShots(p1, p2, qs);
      && SameBody(r.p1, p1) && SameBody(r.p2, p2)
      && Valid(r.p1) && Valid(r.p2)
      && r.p1.hp <= p1.hp && r.p2.hp <= p2.hp
    decreases |qs|
  {
    if |qs| > 0 {
      var q := Projectiles.Update(qs[0]);
      var first := ResolveShot(p1, p2, q);
      TakeDamageKeepsValid(p1, q.damage, Projectiles.PushDirection(q));
      TakeDamageKeepsValid(p2, q.damage, Projectiles.PushDirection(q));
      SweepShotsKeepsFighters(first.p1, first.p2, qs[1..]);
    }
  }

  /** Shots never move a fighter. */
  lemma {:induction false} SweepShotsBodies(p1: Player, p2: Player, qs: seq<Projectiles.Projectile>)
    ensures SameBody(SweepShots(p1, p2, qs).p1, p1) && SameBody(SweepShots(p1, p2, qs).p2, p2)
    decreases |qs|
  {
    if |qs| > 0 {
      var first := ResolveShot(p1, p2, Projectiles.Update(qs[0]));
      SweepShotsBodies(first.p1, first.p2, qs[1..]);
    }
  }

  /** What stays in flight is this tick's moved projectiles, each at most once. */
  lemma {:induction false} SweepShotsKeptFlown(p1: Player, p2: Player, qs: seq<Projectiles.Projectile>)
    ensures multiset(SweepShots(p1, p2, qs).kept) <= multiset(FlyAll(qs))
    ensures |SweepShots(p1, p2, qs).kept| <= |qs|
    decreases |qs|
  {
    if |qs| > 0 {
      var first := ResolveShot(p1, p2, Projectiles.Update(qs[0]));
      SweepShotsKeptFlown(first.p1, first.p2, qs[1..]);
      assert FlyAll(qs) == [Projectiles.Update(qs[0])] + FlyAll(qs[1..]);
      SubMultisetSize(multiset(SweepShots(p1, p2, qs).kept), multiset(FlyAll(qs)));
    }
  }

  /** The shots of `qs` that are in play and hit neither fighter, in their order. */
  function InFlight(p1: Player, p2: Player, qs: seq<Projectiles.Projectile>): seq<Projectiles.Projectile>
    decreases |qs|
  {
    if |qs| == 0 then []
    else
      var q := qs[0];
      (if q.active && !Projectiles.Hits(q, P1, p1) && !Projectiles.Hits(q, P2, p2) then [q] else [])
        + InFlight(p1, p2, qs[1..])
  }

  /** Which shots miss depends only on where the fighters stand. */
  lemma {:induction false} InFlightSameBody(p1: Player, p2: Player, o1: Player, o2: Player, qs: seq<Projectiles.Projectile>)
    requires SameBody(p1, o1) && SameBody(p2, o2)
    ensures InFlight(p1, p2, qs) == InFlight(o1, o2, qs)
    decreases |qs|
  {
    if |qs| > 0 {
      Projectiles.HitsSameBody(qs[0], P1, p1, o1);
      Projectiles.HitsSameBody(qs[0], P2, p2, o2);
      InFlightSameBody(p1, p2, o1, o2, qs[1..]);
    }
  }

  /** A sweep keeps exactly the moved shots that are still in play and hit neither fighter as they
      stood before the sweep, in their order. */
  lemma {:induction false} SweepShotsKeepsExactlyTheMisses(p1: Player, p2: Player, qs: seq<Projectiles.Projectile>)
    ensures SweepShots(p1, p2, qs).kept == InFlight(p1, p2, FlyAll(qs))
    decreases |qs|
  {
    if |qs| > 0 {
      var first := ResolveShot(p1, p2, Projectiles.Update(qs[0]));
      SweepShotsKeepsExactlyTheMisses(first.p1, first.p2, qs[1..]);
      InFlightSameBody(first.p1, first.p2, p1, p2, FlyAll(qs[1..]));
      assert FlyAll(qs)[1..] == FlyAll(qs[1..]);
    }
  }

  /** Every shot still in flight is in play, has non-negative damage and hits no fighter. */
  predicate ShotsClear(w: ShotSweep) {
    forall i :: 0 <= i < |w.kept| ==>
      && w.kept[i].active && w.kept[i].damage >= 0
      && !Projectiles.Hits(w.kept[i], P1, w.p1) && !Projectiles.Hits(w.kept[i], P2, w.p2)
  }

  /** What stays in flight is in play, keeps a non-negative damage and touches no fighter it could hit. */
  lemma {:induction false} SweepShotsKeptClear(p1: Player, p2: Player, qs: seq<Projectiles.Projectile>)
    requires forall i :: 0 <= i < |qs| ==> qs[i].damage >= 0
    ensures ShotsClear(SweepShots(p1, p2, qs))
    decreases |qs|
  {
    if |qs| > 0 {
      var q := Projectiles.Update(qs[0]);
      var first := ResolveShot(p1, p2, q);
      var rest := SweepShots(first.p1, first.p2, qs[1..]);
      SweepShotsKeptClear(first.p1, first.p2, qs[1..]);
      SweepShotsBodies(first.p1, first.p2, qs[1..]);
      var r := SweepShots(p1, p2, qs);
      assert r == ShotSweep(rest.p1, rest.p2, first.kept + rest.kept);
      forall i | 0 <= i < |r.kept|
        ensures r.kept[i].active && r.kept[i].damage >= 0
        ensures !Projectiles.Hits(r.kept[i], P1, r.p1) && !Projectiles.Hits(r.kept[i], P2, r.p2)
      {
        if i < |first.kept| {
          assert r.kept[i] == q && q.damage == qs[0].damage;
          Projectiles.HitsSameBody(q, P1, first.p1, rest.p1);
          Projectiles.HitsSameBody(q, P2, first.p2, rest.p2);
        } else {
          assert r.kept[i] == rest.kept[i - |first.kept|];
        }
      }
    }
  }

  /** `update_projectiles`. */
  function UpdateProjectiles(s: RoundState): (r: RoundState)
    ensures r == s.(p1 := r.p1, p2 := r.p2, projectiles := r.projectiles)
  {
    var sweep := SweepShots(s.p1, s.p2, s.projectiles);
    s.(p1 := sweep.p1, p2 := sweep.p2, projectiles := sweep.kept)
  }

  /** A projectile update keeps the round invariant and never adds a projectile. */
  lemma UpdateProjectilesKeepsRoundValid(s: RoundState)
    requires RoundValid(s)
    ensures RoundValid(UpdateProjectiles(s))
    ensures |UpdateProjectiles(s).projectiles| <= |s.projectiles|
  {
    SweepShotsKeepsFighters(s.p1, s.p2, s.projectiles);
    SweepShotsKeptClear(s.p1, s.p2, s.projectiles);
    SweepShotsKeptFlown(s.p1, s.p2, s.projectiles);
  }

  /** `check_game_over`: player 1's knock-out is looked at first, so a double knock-out is a win for
      player 2; a finished round stays finished. */
  function CheckGameOver(s: RoundState): (r: RoundState)
    ensures r == s.(gameOver := r.gameOver, winner := r.winner)
    ensures s.p1.hp <= 0 ==> r.gameOver && r.winner == Some(P2)
    ensures s.p1.hp > 0 && s.p2.hp <= 0 ==> r.gameOver && r.winner == Some(P1)
    ensures s.p1.hp > 0 && s.p2.hp > 0 ==> r == s
    ensures s.gameOver ==> r.gameOver
    ensures RoundValid(s) ==> RoundValid(r)
  {
    if s.p1.hp <= 0 then s.(gameOver := true, winner := Some(P2))
    else if s.p2.hp <= 0 then s.(gameOver := true, winner := Some(P1))
    else s
  }
}

=== FILE: geometry.dfy ===
/** Axis-aligned boxes and the strict overlap test every collision in the game uses. */
module Geometry {

  /** A rectangle given by its top-left corner and its extent (screen y grows downwards). */
  datatype Box = Box(x: real, y: real, width: real, height: real)

  /** Strict overlap on both axes: boxes that only share an edge do not overlap. */
  predicate Overlaps(a: Box, b: Box) {
    && a.x < b.x + b.width
    && a.x + a.width > b.x
    && a.y < b.y + b.height
    && a.y + a.height > b.y
  }

  lemma OverlapsSymmetric(a: Box, b: Box)
    ensures Overlaps(a, b) <==> Overlaps(b, a)
  {
  }
}

=== FILE: main_loop.dfy ===
/** One frame of the game loop in main.py's `main()`: attack-key presses fire skills, then (unless
    the round is over) platforms, fighters, push-apart, melee, projectiles, spawning, bubbles and
    the win check run in that order. */
module MainLoop {
  import opened Wrappers
  import opened Settings
  import opened Players
  import opened GameStates
  import Platforms
  import Bubbles
  import Projectiles
  import Collision
  import PlayerTicks

  /** Melee lands only on this frame of a swing. */
  const ACTIVE_FRAME: int := 5
  const POW_DAMAGE: int := 8

  /** A key-down event of this frame: a fighter's attack key, or any other key. */
  datatype Event = AttackPressed(who: PlayerId) | OtherKey

  /** Everything one frame reads from outside: the key-down events, the held keys of each fighter,
      and the two random draws the spawner would use. */
  datatype Frame = Frame(events: seq<Event>, keys1: Keys, keys2: Keys, spawnX: int, spawnRoll: real)

  function FacingSign(p: Player): (d: int)
    ensures d == 1 || d == -1
    ensures d == 1 <==> p.facingRight
  {
    if p.facingRight then 1 else -1
  }

  /** The `print` shot: leaves the body's facing edge at half height, flying the way the caster faces. */
  function Muzzle(p: Player, who: PlayerId): (q: Projectiles.Projectile)
    ensures q.x == (if p.facingRight then p.x + p.width as real else p.x)
    ensures q.y == p.y + (p.height / 2) as real
    ensures q.direction == FacingSign(p) && q.owner == who && q.active && q.damage == 2
    ensures q.velX == (PROJECTILE_SPEED * FacingSign(p)) as real
    ensures q.velX > 0.0 <==> p.facingRight
  {
    var x := if p.facingRight then p.x + p.width as real else p.x;
    Projectiles.NewProjectile(x, p.y + (p.height / 2) as real, FacingSign(p), who)
  }

  /** A press of `who`'s attack key: fire the held skill if allowed, remember it for the melee check,
      and put a `print` shot in flight. */
  function PressAttack(s: RoundState, who: PlayerId): (r: RoundState)
    ensures PlayerOf(r, who) == UseSkill(PlayerOf(s, who)).player
    ensures PlayerOf(r, Other(who)) == PlayerOf(s, Other(who))
    ensures r.platforms == s.platforms && r.bubbles == s.bubbles && r.bubbleTimer == s.bubbleTimer
    ensures r.gameOver == s.gameOver && r.winner == s.winner && r.scoreShown == s.scoreShown
    ensures LastSkillOf(r, Other(who)) == LastSkillOf(s, Other(who))
    ensures !(PlayerOf(s, who).skill.Some? && PlayerOf(s, who).attackCooldown <= 0) ==> r == s
    ensures PlayerOf(s, who).skill.Some? && PlayerOf(s, who).attackCooldown <= 0 ==>
      && LastSkillOf(r, who) == PlayerOf(s, who).skill
      && PlayerOf(r, who).skill == None
      && PlayerOf(r, who).attackCooldown == ATTACK_COOLDOWN
    ensures PlayerOf(s, who).skill == Some(Print) && PlayerOf(s, who).attackCooldown <= 0 ==>
      r.projectiles == s.projectiles + [Muzzle(PlayerOf(s, who), who)]
    ensures PlayerOf(s, who).skill != Some(Print) || PlayerOf(s, who).attackCooldown > 0 ==>
      r.projectiles == s.projectiles
  {
    var u := UseSkill(PlayerOf(s, who));
    match u.used
    case None => s
    case Some(k) =>
      var s1 := WithLastSkill(WithPlayer(s, who, u.player), who, Some(k));
      if k == Print then s1.(projectiles := s1.projectiles + [Muzzle(u.player, who)]) else s1
  }

  /** Pressing twice in one frame fires at most one skill: the second press changes nothing. */
  lemma PressTwiceFiresOnce(s: RoundState, who: PlayerId)
    ensures PressAttack(PressAttack(s, who), who) == PressAttack(s, who)
    ensures |PressAttack(PressAttack(s, who), who).projectiles| <= |s.projectiles| + 1
  {
    UseSkillTwiceFiresOnce(PlayerOf(s, who));
  }

  lemma PressAttackKeepsRoundValid(s: RoundState, who: PlayerId)
    requires RoundValid(s)
    ensures RoundValid(PressAttack(s, who))
  {
    var r := PressAttack(s, who);
    assert Valid(r.p1) && Valid(r.p2);
  }

  /** The frame's key-down events, in order; ignored once the round is over. */
  function HandleEvents(s: RoundState, events: seq<Event>): (r: RoundState)
    ensures s.gameOver ==> r == s
    ensures r.gameOver == s.gameOver && r.winner == s.winner && r.scoreShown == s.scoreShown
    ensures r.platforms == s.platforms && r.bubbles == s.bubbles && r.bubbleTimer == s.bubbleTimer
    decreases |events|
  {
    if s.gameOver || |events| == 0 then s
    else
      var next := match events[0]
        case AttackPressed(who) => PressAttack(s, who)
        case OtherKey => s;
      HandleEvents(next, events[1..])
  }

  lemma {:induction false} HandleEventsKeepsRoundValid(s: RoundState, events: seq<Event>)
    requires RoundValid(s)
    ensures RoundValid(HandleEvents(s, events))
    decreases |events|
  {
    if !s.gameOver && |events| > 0 {
      if events[0].AttackPressed? {
        PressAttackKeepsRoundValid(s, events[0].who);
        HandleEventsKeepsRoundValid(PressAttack(s, events[0].who), events[1..]);
      } else {
        HandleEventsKeepsRoundValid(s, events[1..]);
      }
    }
  }

  /** Handling a frame's events one after another: a single press is `PressAttack` (unless the
      round is over), any other key changes nothing, and two batches run back to back. */
  lemma {:induction false} HandleEventsInOrder(s: RoundState, a: seq<Event>, b: seq<Event>)
    ensures !s.gameOver ==> HandleEvents(s, [OtherKey]) == s
    ensures forall who :: !s.gameOver ==> HandleEvents(s, [AttackPressed(who)]) == PressAttack(s, who)
    ensures HandleEvents(s, a + b) == HandleEvents(HandleEvents(s, a), b)
    decreases |a|
  {
    if s.gameOver {
    } else if |a| == 0 {
      assert a + b == b;
    } else {
      var next := match a[0] case AttackPressed(who) => PressAttack(s, who) case OtherKey => s;
      assert (a + b)[1..] == a[1..] + b;
      HandleEventsInOrder(next, a[1..], b);
    }
  }

  /** A fighter whose attack key is not pressed this frame keeps its state and its remembered skill. */
  lemma {:induction false} HandleEventsSparesIdle(s: RoundState, events: seq<Event>, who: PlayerId)
    requires forall i :: 0 <= i < |events| ==> events[i] != AttackPressed(who)
    ensures PlayerOf(HandleEvents(s, events), who) == PlayerOf(s, who)
    ensures LastSkillOf(HandleEvents(s, events), who) == LastSkillOf(s, who)
    decreases |events|
  {
    if !s.gameOver && |events| > 0 {
      var next := match events[0] case AttackPressed(w) => PressAttack(s, w) case OtherKey => s;
      assert PlayerOf(next, who) == PlayerOf(s, who) && LastSkillOf(next, who) == LastSkillOf(s, who) by {
        if events[0].AttackPressed? {
          assert events[0].who == Other(who);
        }
      }
      HandleEventsSparesIdle(next, events[1..], who);
    }
  }

  /** Whether a press of this fighter's attack key would fire its skill now. */
  predicate Armed(p: Player) {
    p.skill.Some? && p.attackCooldown <= 0
  }

  /** How many of the shots in `qs` belong to `who`. */
  function Owned(qs: seq<Projectiles.Projectile>, who: PlayerId): nat
    decreases |qs|
  {
    if |qs| == 0 then 0
    else Owned(qs[..|qs| - 1], who) + (if qs[|qs| - 1].owner == who then 1 else 0)
  }

  /** A press adds no shot of `who`'s unless it is `who`'s own press while armed, and then at most
      one, after which `who` is no longer armed. */
  lemma PressAttackOwned(s: RoundState, w: PlayerId, who: PlayerId)
    ensures var r := PressAttack(s, w);
      && Owned(s.projectiles, who) <= Owned(r.projectiles, who)
      && Owned(r.projectiles, who) + (if Armed(PlayerOf(r, who)) then 1 else 0)
         <= Owned(s.projectiles, who) + (if Armed(PlayerOf(s, who)) then 1 else 0)
  {
    var r := PressAttack(s, w);
    if r.projectiles != s.projectiles {
      var q := Muzzle(PlayerOf(s, w), w);
      assert r.projectiles == s.projectiles + [q];
      assert r.projectiles[..|r.projectiles| - 1] == s.projectiles;
    }
  }

  /** Each fighter fires at most once in a frame, however often its key is pressed, so the frame's
      events put at most one shot of each armed fighter's in flight, none of an unarmed one's, and
      at most two in all. */
  lemma {:induction false} HandleEventsFiresOncePerFighter(s: RoundState, events: seq<Event>)
    ensures var r := HandleEvents(s, events);
      && |s.projectiles| <= |r.projectiles|
      && |r.projectiles| <= |s.projectiles| + (if Armed(s.p1) then 1 else 0) + (if Armed(s.p2) then 1 else 0)
    ensures |HandleEvents(s, events).projectiles| <= |s.projectiles| + 2
    ensures forall who ::
      Owned(HandleEvents(s, events).projectiles, who) <= Owned(s.projectiles, who) + (if Armed(PlayerOf(s, who)) then 1 else 0)
    decreases |events|
  {
    if !s.gameOver && |events| > 0 {
      var next := match events[0] case AttackPressed(w) => PressAttack(s, w) case OtherKey => s;
      HandleEventsFiresOncePerFighter(next, events[1..]);
      if events[0].AttackPressed? {
        forall who ensures Owned(HandleEvents(s, events).projectiles, who)
          <= Owned(s.projectiles, who) + (if Armed(PlayerOf(s, who)) then 1 else 0)
        {
          PressAttackOwned(s, events[0].who, who);
        }
      }
    }
  }

  /** The defender after a melee check, and what the attacker's last-used skill is remembered as. */
  datatype Strike = Strike(defender: Player, last: Option<Skill>)

  /** The melee check: only on the active frame of an unfrozen swing, a remembered `pow` that reaches
      the defender deals 8 with knockback in the facing direction, a remembered `delete` wipes the
      defender's skill slot; either way the remembered skill is spent. */
  function Melee(attacker: Player, defender: Player, last: Option<Skill>): (r: Strike)
    ensures !(attacker.isAttacking && attacker.attackFrame == ACTIVE_FRAME && !attacker.isFrozen) ==>
      r == Strike(defender, last)
    ensures r.last != last ==> r.last == None && Collision.AttackHit(attacker, defender)
    ensures r.last == last ==> r.defender == defender
    ensures r.last != last && last == Some(Pow) ==> r.defender == TakeDamage(defender, POW_DAMAGE, FacingSign(attacker))
    ensures r.last != last && last == Some(Delete) ==> r.defender == defender.(skill := None)
    ensures last == Some(Print) || last == None ==> r == Strike(defender, last)
    ensures attacker.isAttacking && attacker.attackFrame == ACTIVE_FRAME && !attacker.isFrozen
            && (last == Some(Pow) || last == Some(Delete)) && Collision.AttackHit(attacker, defender)
            ==> r.last == None
  {
    if attacker.isAttacking && attacker.attackFrame == ACTIVE_FRAME && !attacker.isFrozen then
      if last == Some(Pow) && Collision.AttackHit(attacker, defender) then
        Strike(TakeDamage(defender, POW_DAMAGE, FacingSign(attacker)), None)
      else if last == Some(Delete) && Collision.AttackHit(attacker, defender) then
        Strike(defender.(skill := None), None)
      else Strike(defender, last)
    else Strike(defender, last)
  }

  /** One swing lands at most once: checking again against the struck defender changes nothing. */
  lemma MeleeLandsOnce(attacker: Player, defender: Player, last: Option<Skill>)
    ensures var r := Melee(attacker, defender, last);
      Melee(attacker, r.defender, r.last) == r
  {
  }

  /** A `delete` hit costs no health. */
  lemma DeleteHitSparesHealth(attacker: Player, defender: Player)
    ensures Melee(attacker, defender, Some(Delete)).defender.hp == defender.hp
  {
  }

  /** The melee check with `who` as attacker, applied to the round. */
  function ResolveMelee(s: RoundState, who: PlayerId): (r: RoundState)
    ensures PlayerOf(r, who) == PlayerOf(s, who)
    ensures r == s.(p1 := r.p1, p2 := r.p2, lastP1Skill := r.lastP1Skill, lastP2Skill := r.lastP2Skill)
    ensures LastSkillOf(r, Other(who)) == LastSkillOf(s, Other(who))
  {
    var st := Melee(PlayerOf(s, who), PlayerOf(s, Other(who)), LastSkillOf(s, who));
    WithLastSkill(WithPlayer(s, Other(who), st.defender), who, st.last)
  }

  lemma ResolveMeleeKeepsValid(s: RoundState, who: PlayerId)
    requires Valid(s.p1) && Valid(s.p2)
    ensures Valid(ResolveMelee(s, who).p1) && Valid(ResolveMelee(s, who).p2)
  {
    var d := PlayerOf(s, Other(who));
    TakeDamageKeepsValid(d, POW_DAMAGE, FacingSign(PlayerOf(s, who)));
  }

  /** The bubble kind main.py draws from a uniform `rand` in [0, 1):
      pow 25%, delete 15%, print 25%, ctrlc 20%, typeerror 15%; never a super bubble. */
  function LoopSpawnKind(rand: real): (k: Bubbles.BubbleKind)
    ensures k != Bubbles.Super
    ensures k == Bubbles.Grant(Pow) <==> rand < 0.25
    ensures k == Bubbles.Grant(Delete) <==> 0.25 <= rand < 0.40
    ensures k == Bubbles.Grant(Print) <==> 0.40 <= rand < 0.65
    ensures k == Bubbles.CtrlC <==> 0.65 <= rand < 0.85
    ensures k == Bubbles.TypeError <==> 0.85 <= rand
  {
    if rand < 0.25 then Bubbles.Grant(Pow)
    else if rand < 0.40 then Bubbles.Grant(Delete)
    else if rand < 0.65 then Bubbles.Grant(Print)
    else if rand < 0.85 then Bubbles.CtrlC
    else Bubbles.TypeError
  }

  /** main.py's spawner: its own smaller, slower bubbles, at a random x in [100, WIDTH - 100]. */
  function LoopSpawn(s: RoundState, x: int, rand: real): (r: RoundState)
    requires SPAWN_MARGIN <= x <= WIDTH - SPAWN_MARGIN
    ensures r == s.(bubbles := r.bubbles, bubbleTimer := r.bubbleTimer)
    ensures |r.bubbles| > |s.bubbles| <==> s.bubbleTimer + 1 >= BUBBLE_SPAWN_TIME
    ensures |r.bubbles| > |s.bubbles| ==>
      r.bubbles == s.bubbles + [Bubbles.NewLoopBubble(x as real, SPAWN_Y, LoopSpawnKind(rand))] && r.bubbleTimer == 0
    ensures |r.bubbles| == |s.bubbles| ==> r.bubbles == s.bubbles
    ensures RoundValid(s) ==> RoundValid(r)
  {
    SpawnTick(s, Bubbles.NewLoopBubble(x as real, SPAWN_Y, LoopSpawnKind(rand)))
  }

  /** main.py's bubble loop, whose pickups cannot fault. */
  function LoopBubbles(s: RoundState): (r: RoundState)
    ensures r == s.(p1 := r.p1, p2 := r.p2, bubbles := r.bubbles)
    ensures r.p1.hp == s.p1.hp && r.p2.hp == s.p2.hp
    ensures |r.bubbles| <= |s.bubbles|
  {
    LoopSweepSucceeds(s.p1, s.p2, s.bubbles);
    SweepBubblesKeptFallen(LoopRules, s.p1, s.p2, s.bubbles);
    var w := SweepBubbles(LoopRules, s.p1, s.p2, s.bubbles).value;
    LoopBubblesHarmless(s);
    s.(p1 := w.p1, p2 := w.p2, bubbles := w.kept)
  }

  lemma LoopBubblesHarmless(s: RoundState)
    ensures SweepBubbles(LoopRules, s.p1, s.p2, s.bubbles).Success?
    ensures var w := SweepBubbles(LoopRules, s.p1, s.p2, s.bubbles).value;
      w.p1.hp == s.p1.hp && w.p2.hp == s.p2.hp
  {
    LoopSweepSucceeds(s.p1, s.p2, s.bubbles);
    LoopSweepKeepsHealth(s.p1, s.p2, s.bubbles);
  }

  /** main.py's pickups never change anyone's health, valid or not. */
  lemma {:induction false} LoopSweepKeepsHealth(p1: Player, p2: Player, bs: seq<Bubbles.Bubble>)
    ensures var r := SweepBubbles(LoopRules, p1, p2, bs);
      r.Success? ==> r.value.p1.hp == p1.hp && r.value.p2.hp == p2.hp
    decreases |bs|
  {
    if |bs| > 0 {
      var first := ResolveBubble(LoopRules, p1, p2, Bubbles.Update(bs[0]));
      if first.Success? {
        LoopSweepKeepsHealth(first.value.p1, first.value.p2, bs[1..]);
      }
    }
  }

  lemma LoopBubblesKeepsRoundValid(s: RoundState)
    requires RoundValid(s)
    ensures RoundValid(LoopBubbles(s))
  {
    LoopSweepSucceeds(s.p1, s.p2, s.bubbles);
    SweepBubblesKeepsFighters(LoopRules, s.p1, s.p2, s.bubbles);
    SweepBubblesKeptClear(LoopRules, s.p1, s.p2, s.bubbles);
  }

  /** Every platform moves one tick. */
  function MoveAll(pls: seq<Platforms.Platform>): (r: seq<Platforms.Platform>)
    ensures |r| == |pls|
    ensures forall i :: 0 <= i < |pls| ==> r[i] == Platforms.Update(pls[i])
  {
    seq(|pls|, i requires 0 <= i < |pls| => Platforms.Update(pls[i]))
  }

  /** Platforms, both fighters (each with its own keys, against the moved platforms), push-apart,
      player 1's melee then player 2's, before the lists are swept. */
  function Brawl(s: RoundState, keys1: Keys, keys2: Keys): (r: RoundState)
    ensures r == s.(platforms := MoveAll(s.platforms), p1 := r.p1, p2 := r.p2,
                    lastP1Skill := r.lastP1Skill, lastP2Skill := r.lastP2Skill)
  {
    var pls := MoveAll(s.platforms);
    var c := Collision.PushApart(Players.Update(s.p1, keys1, pls), Players.Update(s.p2, keys2, pls));
    ResolveMelee(ResolveMelee(s.(platforms := pls, p1 := c.first, p2 := c.second), P1), P2)
  }

  /** The simulation block of one frame: skipped entirely once the round is over. */
  function Simulate(s: RoundState, keys1: Keys, keys2: Keys, x: int, rand: real): (r: RoundState)
    requires SPAWN_MARGIN <= x <= WIDTH - SPAWN_MARGIN
    ensures s.gameOver ==> r == s
    ensures !s.gameOver ==> r.platforms == MoveAll(s.platforms)
    ensures !s.gameOver ==> (r.gameOver <==> r.p1.hp <= 0 || r.p2.hp <= 0)
    ensures !s.gameOver && r.gameOver ==> (r.winner == Some(P2) <==> r.p1.hp <= 0)
  {
    if s.gameOver then s
    else CheckGameOver(LoopBubbles(LoopSpawn(UpdateProjectiles(Brawl(s, keys1, keys2)), x, rand)))
  }

  /** One frame of `main()`. */
  function Step(s: RoundState, f: Frame): (r: RoundState)
    requires SPAWN_MARGIN <= f.spawnX <= WIDTH - SPAWN_MARGIN
    ensures s.gameOver ==> r == s
    ensures !s.gameOver ==> r.platforms == MoveAll(s.platforms)
  {
    Simulate(HandleEvents(s, f.events), f.keys1, f.keys2, f.spawnX, f.spawnRoll)
  }

  /** Once the round is over nothing changes any more. */
  lemma FinishedRoundIsFrozen(s: RoundState, f: Frame)
    requires SPAWN_MARGIN <= f.spawnX <= WIDTH - SPAWN_MARGIN
    requires s.gameOver
    ensures Step(s, f) == s
  {
  }

  /** After a live frame the round is over exactly when a fighter is out of health, and player 1's
      knock-out is read first: player 2 wins exactly when player 1 is down. */
  lemma FrameDecidesWinner(s: RoundState, f: Frame)
    requires SPAWN_MARGIN <= f.spawnX <= WIDTH - SPAWN_MARGIN
    requires !s.gameOver
    ensures var r := Step(s, f);
      && (r.gameOver <==> r.p1.hp <= 0 || r.p2.hp <= 0)
      && (r.gameOver ==> (r.winner == Some(P2) <==> r.p1.hp <= 0))
      && (r.gameOver ==> r.winner.Some?)
  {
  }

  /** Moving the platforms keeps every one of them inside its band. */
  lemma MoveAllKeepsOscillating(pls: seq<Platforms.Platform>)
    requires forall i :: 0 <= i < |pls| ==> Platforms.Oscillating(pls[i])
    ensures forall i :: 0 <= i < |MoveAll(pls)| ==> Platforms.Oscillating(MoveAll(pls)[i])
  {
    forall i | 0 <= i < |pls|
      ensures Platforms.Oscillating(MoveAll(pls)[i])
    {
      Platforms.UpdateKeepsOscillating(pls[i]);
    }
  }

  /** Push-apart moves fighters sideways only, so it cannot break a fighter's invariant. */
  lemma PushApartKeepsValid(a: Player, b: Player)
    requires Valid(a) && Valid(b)
    ensures Valid(Collision.PushApart(a, b).first) && Valid(Collision.PushApart(a, b).second)
  {
  }

  lemma BrawlKeepsFighters(s: RoundState, keys1: Keys, keys2: Keys)
    requires Valid(s.p1) && Valid(s.p2)
    ensures Valid(Brawl(s, keys1, keys2).p1) && Valid(Brawl(s, keys1, keys2).p2)
  {
    var pls := MoveAll(s.platforms);
    var a := Players.Update(s.p1, keys1, pls);
    var b := Players.Update(s.p2, keys2, pls);
    PlayerTicks.UpdateKeepsValid(s.p1, keys1, pls);
    PlayerTicks.UpdateKeepsValid(s.p2, keys2, pls);
    PushApartKeepsValid(a, b);
    var c := Collision.PushApart(a, b);
    var s1 := s.(platforms := pls, p1 := c.first, p2 := c.second);
    ResolveMeleeKeepsValid(s1, P1);
    var s2 := ResolveMelee(s1, P1);
    ResolveMeleeKeepsValid(s2, P2);
    assert Brawl(s, keys1, keys2) == ResolveMelee(s2, P2);
  }

  lemma BrawlKeepsRoundValid(s: RoundState, keys1: Keys, keys2: Keys)
    requires RoundValid(s)
    ensures RoundValid(Brawl(s, keys1, keys2))
  {
    MoveAllKeepsOscillating(s.platforms);
    BrawlKeepsFighters(s, keys1, keys2);
  }

  /** Every frame keeps the round invariant: fighters' health, swing, cooldown and timer bounds,
      the spawn timer below its interval, a winner exactly when the round is over, only live
      bubbles and projectiles in the lists, and every platform inside its band. */
  lemma StepKeepsRoundValid(s: RoundState, f: Frame)
    requires SPAWN_MARGIN <= f.spawnX <= WIDTH - SPAWN_MARGIN
    requires RoundValid(s)
    ensures RoundValid(Step(s, f))
  {
    var s0 := HandleEvents(s, f.events);
    HandleEventsKeepsRoundValid(s, f.events);
    if !s0.gameOver {
      var s1 := Brawl(s0, f.keys1, f.keys2);
      BrawlKeepsRoundValid(s0, f.keys1, f.keys2);
      var s2 := UpdateProjectiles(s1);
      UpdateProjectilesKeepsRoundValid(s1);
      var s3 := LoopSpawn(s2, f.spawnX, f.spawnRoll);
      LoopBubblesKeepsRoundValid(s3);
    }
  }
}

=== FILE: platform.dfy ===
/** The key-cap platforms of entities/platform.py: static keys and vertically oscillating ones. */
module Platforms {
  import opened Geometry

  /** Constructor defaults: every platform moves one pixel per tick within 60 pixels of its anchor. */
  const DEFAULT_MOVE_SPEED: int := 1
  const DEFAULT_MOVE_RANGE: int := 60

  datatype Platform = Platform(
    x: int, y: int, baseY: int, width: int, height: int,
    keyLabel: string,
    isDynamic: bool,
    moveDirection: int,
    moveSpeed: int,
    moveRange: int)

  /** The oscillation invariant of a one-pixel-per-tick platform: it lies inside the band
      [baseY - moveRange, baseY + moveRange], moves one way or the other, and at either
      edge of the band it is already heading back inwards. A static key sits at its anchor. */
  predicate Oscillating(p: Platform) {
    && p.moveSpeed == 1
    && p.moveRange >= 1
    && (p.moveDirection == 1 || p.moveDirection == -1)
    && p.baseY - p.moveRange <= p.y <= p.baseY + p.moveRange
    && (p.y == p.baseY + p.moveRange ==> p.moveDirection == -1)
    && (p.y == p.baseY - p.moveRange ==> p.moveDirection == 1)
    && (!p.isDynamic ==> p.y == p.baseY)
  }

  function NewPlatform(x: int, y: int, width: int, height: int, keyLabel: string, isDynamic: bool): (r: Platform)
    ensures r.x == x && r.y == y && r.width == width && r.height == height
    ensures r.keyLabel == keyLabel && r.isDynamic == isDynamic
    ensures r.baseY == y && r.moveDirection == 1
    ensures r.moveSpeed == DEFAULT_MOVE_SPEED && r.moveRange == DEFAULT_MOVE_RANGE
    ensures Oscillating(r)
  {
    Platform(x, y, y, width, height, keyLabel, isDynamic, 1, DEFAULT_MOVE_SPEED, DEFAULT_MOVE_RANGE)
  }

  /** One tick of platform motion. */
  function Update(p: Platform): (r: Platform)
    ensures !p.isDynamic ==> r == p
    ensures p.isDynamic ==> r.y == p.y + p.moveSpeed * p.moveDirection
    ensures r == p.(y := r.y, moveDirection := r.moveDirection)
    ensures p.isDynamic && r.y <= p.baseY - p.moveRange ==> r.moveDirection == 1
    ensures p.isDynamic && p.baseY - p.moveRange < r.y && r.y >= p.baseY + p.moveRange ==> r.moveDirection == -1
    ensures p.baseY - p.moveRange < r.y < p.baseY + p.moveRange ==> r.moveDirection == p.moveDirection
  {
    if p.isDynamic then
      var y := p.y + p.moveSpeed * p.moveDirection;
      if y <= p.baseY - p.moveRange then p.(y := y, moveDirection := 1)
      else if y >= p.baseY + p.moveRange then p.(y := y, moveDirection := -1)
      else p.(y := y)
    else
      p
  }

  /** The platform's whole rectangle, as the collision tests see it. */
  function Footprint(p: Platform): Box {
    Box(p.x as real, p.y as real, p.width as real, p.height as real)
  }

  lemma UpdateKeepsOscillating(p: Platform)
    requires Oscillating(p)
    ensures Oscillating(Update(p))
    ensures p.moveDirection == 1 ==> Update(p).moveDirection == 1 || Update(p).y == p.baseY + p.moveRange
  {
  }

  /** `n` consecutive ticks. */
  function Run(p: Platform, n: nat): Platform
    decreases n
  {
    if n == 0 then p else Run(Update(p), n - 1)
  }

  /** Repeated ticks never leave the band around the anchor. */
  lemma {:induction false} RunStaysInBand(p: Platform, n: nat)
    requires Oscillating(p)
    ensures Oscillating(Run(p, n))
    ensures p.baseY - p.moveRange <= Run(p, n).y <= p.baseY + p.moveRange
    ensures Run(p, n) == p.(y := Run(p, n).y, moveDirection := Run(p, n).moveDirection)
    decreases n
  {
    if n > 0 {
      UpdateKeepsOscillating(p);
      RunStaysInBand(Update(p), n - 1);
    }
  }

  /** A moving platform heading in direction `d` travels `k` pixels straight on
      as long as it does not reach the far edge of its band before the last step. */
  lemma {:induction false} RunStraight(p: Platform, k: nat)
    requires Oscillating(p) && p.isDynamic
    requires p.moveDirection == 1 ==> p.y + k <= p.baseY + p.moveRange
    requires p.moveDirection == -1 ==> p.y - k >= p.baseY - p.moveRange
    ensures Run(p, k).y == p.y + k * p.moveDirection
    ensures 0 < k && Run(p, k).y == p.baseY + p.moveRange ==> Run(p, k).moveDirection == -1
    ensures 0 < k && Run(p, k).y == p.baseY - p.moveRange ==> Run(p, k).moveDirection == 1
    ensures Run(p, k).y != p.baseY + p.moveRange && Run(p, k).y != p.baseY - p.moveRange ==> Run(p, k).moveDirection == p.moveDirection
    decreases k
  {
    if k > 0 {
      UpdateKeepsOscillating(p);
      var q := Update(p);
      assert q.y == p.y + p.moveDirection;
      assert q.y != p.baseY + p.moveRange && q.y != p.baseY - p.moveRange ==> q.moveDirection == p.moveDirection;
      if k > 1 {
        assert q.moveDirection == p.moveDirection;
      }
      RunStraight(q, k - 1);
    }
  }

  lemma {:induction false} RunAdd(p: Platform, a: nat, b: nat)
    ensures Run(p, a + b) == Run(Run(p, a), b)
    decreases a
  {
    if a > 0 {
      RunAdd(Update(p), a - 1, b);
    }
  }

  /** A moving platform that sits at its anchor heading down-screen repeats its motion
      every 4 * moveRange ticks: to the lower edge, back up through the anchor to the upper
      edge, and down to the anchor again. Freshly built moving platforms start in this state. */
  lemma PeriodFromAnchor(p: Platform)
    requires Oscillating(p) && p.isDynamic && p.y == p.baseY && p.moveDirection == 1
    ensures Run(p, 4 * p.moveRange) == p
  {
    var R: nat := p.moveRange;
    RunStraight(p, R);
    var a := Run(p, R);
    RunStaysInBand(p, R);
    RunStraight(a, 2 * R);
    var b := Run(a, 2 * R);
    RunStaysInBand(a, 2 * R);
    RunStraight(b, R);
    RunStaysInBand(b, R);
    assert Run(b, R) == p;
    RunAdd(p, R, 2 * R);
    RunAdd(p, 3 * R, R);
  }

  lemma FreshPlatformPeriod(x: int, y: int, width: int, height: int, keyLabel: string)
    ensures Run(NewPlatform(x, y, width, height, keyLabel, true), 4 * DEFAULT_MOVE_RANGE)
         == NewPlatform(x, y, width, height, keyLabel, true)
  {
    PeriodFromAnchor(NewPlatform(x, y, width, height, keyLabel, true));
  }
}

=== FILE: player.dfy ===
/** The fighter of entities/player.py: movement, gravity and landing, arena clamping and
    fall death, knockback, the swing counter, skills, damage and the two status timers. */
module Players {
  import opened Wrappers
  import opened Settings
  import opened Geometry
  import Platforms

  /** A swing ends once its frame counter passes this value. */
  const SWING_LAST_FRAME: int := 15
  /** `take_damage` turns a knockback direction into a horizontal push of this many pixels per unit. */
  const KNOCKBACK_SCALE: int := 15
  /** Below this magnitude knockback snaps to zero; above it, it shrinks by KNOCKBACK_DECAY per tick. */
  const KNOCKBACK_EPSILON: real := 0.1
  const KNOCKBACK_DECAY: real := 0.8
  /** The melee reach box that sits beside the body on the facing side. */
  const ATTACK_WIDTH: real := 80.0
  const ATTACK_HEIGHT: real := 60.0
  const BODY_WIDTH: nat := 40
  const BODY_HEIGHT: nat := 60
  const START_HP: int := 100

  /** Which of the two fighters: the source compares player objects by identity. */
  datatype PlayerId = P1 | P2

  /** The skill a fighter can hold in its single slot. */
  datatype Skill = Pow | Delete | Print

  /** The held state of one fighter's movement keys in this tick. */
  datatype Keys = Keys(left: bool, right: bool, jump: bool)

  datatype Player = Player(
    x: real, y: real,
    width: nat, height: nat,
    velX: real, velY: real,
    hp: int, maxHp: int,
    onGround: bool,
    facingRight: bool,
    skill: Option<Skill>,
    attackCooldown: int,
    isAttacking: bool,
    attackFrame: int,
    knockbackX: real,
    isFrozen: bool, freezeTimer: int,
    isReversed: bool, reverseTimer: int)

  function Other(id: PlayerId): PlayerId {
    if id == P1 then P2 else P1
  }

  function Abs(r: real): real {
    if r < 0.0 then -r else r
  }

  /** What holds of a fighter between ticks, whatever the players and the game do to it. */
  predicate Valid(p: Player) {
    && 0 <= p.hp <= p.maxHp
    && 0 <= p.attackFrame <= SWING_LAST_FRAME
    && (!p.isAttacking ==> p.attackFrame == 0)
    && 0 <= p.attackCooldown <= ATTACK_COOLDOWN
    && 0 <= p.freezeTimer <= FREEZE_DURATION
    && (p.isFrozen <==> p.freezeTimer > 0)
    && 0 <= p.reverseTimer <= REVERSED_DURATION
    && (p.isReversed <==> p.reverseTimer > 0)
    && (p.onGround ==> p.velY == 0.0)
    && (p.velX == 0.0 || p.velX == MOVE_SPEED || p.velX == -MOVE_SPEED)
    && (p.isFrozen ==> p.velX == 0.0)
  }

  function NewPlayer(x: real, y: real, facingRight: bool): (r: Player)
    ensures Valid(r)
    ensures r.x == x && r.y == y && r.facingRight == facingRight
    ensures r.hp == r.maxHp == START_HP
    ensures r.skill == None && !r.isAttacking && !r.isFrozen && !r.isReversed && !r.onGround
    ensures r.width == BODY_WIDTH && r.height == BODY_HEIGHT
    ensures r.velX == 0.0 && r.velY == 0.0 && r.attackCooldown == 0 && r.knockbackX == 0.0
    ensures r.attackFrame == 0 && r.freezeTimer == 0 && r.reverseTimer == 0
  {
    Player(x, y, BODY_WIDTH, BODY_HEIGHT, 0.0, 0.0, START_HP, START_HP, false, facingRight,
           None, 0, false, 0, 0.0, false, 0, false, 0)
  }

  /** The fighter's body rectangle. */
  function Body(p: Player): Box {
    Box(p.x, p.y, p.width as real, p.height as real)
  }

  /** Bodies with the same position and size: everything a collision test looks at. */
  predicate SameBody(p: Player, q: Player) {
    p.x == q.x && p.y == q.y && p.width == q.width && p.height == q.height
  }

  /** `check_platform_collision`: strict overlap while not moving upwards. */
  predicate OnPlatform(p: Player, pl: Platforms.Platform) {
    Overlaps(Body(p), Platforms.Footprint(pl)) && p.velY >= 0.0
  }

  /** The platform scan that ends both branches of `update`: the first platform in list order
      that the falling fighter overlaps catches it; otherwise it is airborne. */
  function Land(p: Player, pls: seq<Platforms.Platform>): (r: Player)
    ensures r == p.(y := r.y, velY := r.velY, onGround := r.onGround)
    ensures r.onGround ==> r.velY == 0.0
    decreases |pls|
  {
    if |pls| == 0 then p.(onGround := false)
    else if OnPlatform(p, pls[0]) && p.velY > 0.0 then
      p.(y := pls[0].y as real - p.height as real, velY := 0.0, onGround := true)
    else Land(p, pls[1..])
  }

  /** Platform `i` is the first in the list that the fighter overlaps. */
  predicate FirstLanding(p: Player, pls: seq<Platforms.Platform>, i: int) {
    && 0 <= i < |pls|
    && OnPlatform(p, pls[i])
    && forall j :: 0 <= j < i ==> !OnPlatform(p, pls[j])
  }

  /** Landing, stated against the list as a whole: the fighter ends on the ground exactly when it
      is falling and overlaps some platform, and then it stands on top of the FIRST such platform
      with its vertical speed cancelled; otherwise its height and speed are untouched. */
  lemma {:induction false} LandSpec(p: Player, pls: seq<Platforms.Platform>)
    ensures Land(p, pls).onGround <==> p.velY > 0.0 && exists i :: 0 <= i < |pls| && OnPlatform(p, pls[i])
    ensures Land(p, pls).onGround ==>
      exists i :: FirstLanding(p, pls, i) && Land(p, pls).y == pls[i].y as real - p.height as real
    ensures !Land(p, pls).onGround ==> Land(p, pls).y == p.y && Land(p, pls).velY == p.velY
    decreases |pls|
  {
    if |pls| == 0 {
    } else if OnPlatform(p, pls[0]) && p.velY > 0.0 {
      assert FirstLanding(p, pls, 0);
    } else {
      var tail := pls[1..];
      LandSpec(p, tail);
      var r := Land(p, tail);
      assert r == Land(p, pls);
      if r.onGround {
        var i :| FirstLanding(p, tail, i) && r.y == tail[i].y as real - p.height as real;
        assert FirstLanding(p, pls, i + 1) by {
          forall j | 0 <= j < i + 1
            ensures !OnPlatform(p, pls[j])
          {
            if j > 0 {
              assert pls[j] == tail[j - 1];
            }
          }
        }
      } else if p.velY > 0.0 {
        forall i | 0 <= i < |pls|
          ensures !OnPlatform(p, pls[i])
        {
          if i > 0 {
            assert pls[i] == tail[i - 1];
          }
        }
      }
    }
  }

  /** The reversed-controls countdown, which runs first in every update, frozen or not. */
  function CountDownReverse(p: Player): (r: Player)
    ensures r == p.(isReversed := r.isReversed, reverseTimer := r.reverseTimer)
    ensures !p.isReversed ==> r == p
    ensures p.isReversed && p.reverseTimer > 1 ==> r.isReversed && r.reverseTimer == p.reverseTimer - 1
    ensures p.isReversed && p.reverseTimer <= 1 ==> !r.isReversed && r.reverseTimer == 0
  {
    if p.isReversed then
      var t := p.reverseTimer - 1;
      if t <= 0 then p.(isReversed := false, reverseTimer := 0) else p.(reverseTimer := t)
    else p
  }

  /** The freeze countdown of the frozen branch. */
  function CountDownFreeze(p: Player): (r: Player)
    requires p.isFrozen
    ensures r == p.(isFrozen := r.isFrozen, freezeTimer := r.freezeTimer)
    ensures p.freezeTimer > 1 ==> r.isFrozen && r.freezeTimer == p.freezeTimer - 1
    ensures p.freezeTimer <= 1 ==> !r.isFrozen && r.freezeTimer == 0
  {
    var t := p.freezeTimer - 1;
    if t <= 0 then p.(isFrozen := false, freezeTimer := 0) else p.(freezeTimer := t)
  }

  /** A frozen fighter's motion: no horizontal speed, gravity acts, and only y moves. */
  function Halt(p: Player): (r: Player)
    ensures r == p.(velX := 0.0, velY := r.velY, y := r.y)
    ensures r.velY == p.velY + GRAVITY && r.y == p.y + r.velY
  {
    var vy := p.velY + GRAVITY;
    p.(velX := 0.0, velY := vy, y := p.y + vy)
  }

  /** A frozen tick: no horizontal motion, no swing or cooldown progress, no knockback,
      no arena clamp and no fall-death check; gravity and landing still apply. */
  function FrozenStep(p: Player, pls: seq<Platforms.Platform>): (r: Player)
    requires p.isFrozen
    ensures r == p.(isFrozen := r.isFrozen, freezeTimer := r.freezeTimer, velX := 0.0,
                    velY := r.velY, y := r.y, onGround := r.onGround)
    ensures p.freezeTimer > 1 ==> r.isFrozen && r.freezeTimer == p.freezeTimer - 1
    ensures p.freezeTimer <= 1 ==> !r.isFrozen && r.freezeTimer == 0
  {
    var q := CountDownFreeze(p);
    Land(Halt(q), pls)
  }

  /** The swing counter: one frame per tick, and the swing ends after frame 15. */
  function AdvanceSwing(p: Player): (r: Player)
    ensures r == p.(isAttacking := r.isAttacking, attackFrame := r.attackFrame)
    ensures !p.isAttacking ==> r == p
    ensures p.isAttacking && p.attackFrame < SWING_LAST_FRAME ==> r.isAttacking && r.attackFrame == p.attackFrame + 1
    ensures p.isAttacking && p.attackFrame >= SWING_LAST_FRAME ==> !r.isAttacking && r.attackFrame == 0
    ensures r.isAttacking ==> r.attackFrame <= SWING_LAST_FRAME
  {
    if p.isAttacking then
      var f := p.attackFrame + 1;
      if f > SWING_LAST_FRAME then p.(isAttacking := false, attackFrame := 0) else p.(attackFrame := f)
    else p
  }

  /** Knockback moves the fighter and decays geometrically; once small it is cut to zero. */
  function DecayKnockback(p: Player): (r: Player)
    ensures r == p.(x := r.x, knockbackX := r.knockbackX)
    ensures Abs(r.knockbackX) <= Abs(p.knockbackX)
    ensures Abs(p.knockbackX) > KNOCKBACK_EPSILON ==>
      r.x == p.x + p.knockbackX && Abs(r.knockbackX) == KNOCKBACK_DECAY * Abs(p.knockbackX)
    ensures Abs(p.knockbackX) <= KNOCKBACK_EPSILON ==> r.x == p.x && r.knockbackX == 0.0
    ensures r.knockbackX * p.knockbackX >= 0.0
  {
    if Abs(p.knockbackX) > KNOCKBACK_EPSILON then
      p.(x := p.x + p.knockbackX, knockbackX := p.knockbackX * KNOCKBACK_DECAY)
    else
      p.(knockbackX := 0.0)
  }

  /** Horizontal input, with left and right exchanged while controls are reversed. */
  function Steer(p: Player, keys: Keys): (r: Player)
    ensures r == p.(velX := r.velX, facingRight := r.facingRight)
    ensures r.velX == 0.0 || r.velX == MOVE_SPEED || r.velX == -MOVE_SPEED
    ensures r.velX < 0.0 ==> !r.facingRight
    ensures r.velX > 0.0 ==> r.facingRight
    ensures r.velX == 0.0 ==> r.facingRight == p.facingRight
    ensures p.isAttacking ==> r.velX == 0.0
    ensures !p.isReversed ==> (r.velX < 0.0 <==> keys.left && !p.isAttacking)
    ensures !p.isReversed ==> (r.velX > 0.0 <==> !keys.left && keys.right && !p.isAttacking)
  {
    var left := if p.isReversed then keys.right else keys.left;
    var right := if p.isReversed then keys.left else keys.right;
    if left && !p.isAttacking then p.(velX := -MOVE_SPEED, facingRight := false)
    else if right && !p.isAttacking then p.(velX := MOVE_SPEED, facingRight := true)
    else p.(velX := 0.0)
  }

  /** Reversal is exactly a swap of the two horizontal keys. */
  lemma SteerReversedSwapsKeys(p: Player, keys: Keys)
    requires p.isReversed
    ensures Steer(p, keys)
         == Steer(p.(isReversed := false), Keys(keys.right, keys.left, keys.jump)).(isReversed := true)
  {
  }

  /** Keep the body inside the arena horizontally. */
  function ClampX(p: Player): (r: Player)
    ensures r == p.(x := r.x)
    ensures r.x <= (WIDTH - p.width) as real
    ensures p.width <= WIDTH ==> 0.0 <= r.x
    ensures 0.0 <= p.x <= (WIDTH - p.width) as real ==> r.x == p.x
    ensures p.x < 0.0 && p.width <= WIDTH ==> r.x == 0.0
    ensures p.x > (WIDTH - p.width) as real ==> r.x == (WIDTH - p.width) as real
  {
    var x := if p.x < 0.0 then 0.0 else p.x;
    var limit := (WIDTH - p.width) as real;
    p.(x := if x > limit then limit else x)
  }

  /** The attack cooldown counts down to zero, one per unfrozen tick. */
  function CoolDown(p: Player): (r: Player)
    ensures p.attackCooldown > 0 ==> r == p.(attackCooldown := p.attackCooldown - 1)
    ensures p.attackCooldown <= 0 ==> r == p
    ensures 0 <= p.attackCooldown <= ATTACK_COOLDOWN ==> 0 <= r.attackCooldown < ATTACK_COOLDOWN
  {
    p.(attackCooldown := if p.attackCooldown > 0 then p.attackCooldown - 1 else p.attackCooldown)
  }

  /** A jump takes effect only from the ground. */
  function Jump(p: Player, jump: bool): (r: Player)
    ensures r == p.(velY := r.velY, onGround := r.onGround)
    ensures jump && p.onGround ==> r.velY == JUMP_POWER && !r.onGround
    ensures !(jump && p.onGround) ==> r == p
  {
    if jump && p.onGround then p.(velY := JUMP_POWER, onGround := false) else p
  }

  /** Gravity is added to the vertical speed, then both speeds move the body. */
  function Fall(p: Player): (r: Player)
    ensures r == p.(velY := r.velY, x := r.x, y := r.y)
    ensures r.velY == p.velY + GRAVITY
    ensures r.x == p.x + p.velX && r.y == p.y + r.velY
  {
    var vy := p.velY + GRAVITY;
    p.(velY := vy, x := p.x + p.velX, y := p.y + vy)
  }

  /** The end of an unfrozen tick: clamp to the arena, then fall death below the floor. */
  function Settle(p: Player): (r: Player)
    ensures r == p.(x := r.x, hp := r.hp)
    ensures r.x <= (WIDTH - p.width) as real
    ensures p.width <= WIDTH ==> 0.0 <= r.x
    ensures r.hp == if p.y > HEIGHT as real then 0 else p.hp
    ensures 0.0 <= p.x <= (WIDTH - p.width) as real ==> r.x == p.x
    ensures p.x < 0.0 && p.width <= WIDTH ==> r.x == 0.0
    ensures p.x > (WIDTH - p.width) as real ==> r.x == (WIDTH - p.width) as real
  {
    var clamped := ClampX(p);
    if clamped.y > HEIGHT as real then clamped.(hp := 0) else clamped
  }

  /** The input-driven part of an unfrozen tick, before any vertical motion. */
  function Prepare(p: Player, keys: Keys): Player {
    Steer(DecayKnockback(AdvanceSwing(CoolDown(p))), keys)
  }

  /** An unfrozen tick, after the reverse countdown. */
  function ActiveStep(p: Player, keys: Keys, pls: seq<Platforms.Platform>): (r: Player)
    ensures r.isFrozen == p.isFrozen && r.freezeTimer == p.freezeTimer
    ensures r.isReversed == p.isReversed && r.reverseTimer == p.reverseTimer
    ensures r.skill == p.skill && r.width == p.width && r.height == p.height && r.maxHp == p.maxHp
    ensures p.width <= WIDTH ==> 0.0 <= r.x <= (WIDTH - p.width) as real
  {
    Settle(Land(Fall(Jump(Prepare(p, keys), keys.jump)), pls))
  }

  /** `Player.update(keys, platforms)`. */
  function Update(p: Player, keys: Keys, pls: seq<Platforms.Platform>): (r: Player)
    ensures r.width == p.width && r.height == p.height && r.maxHp == p.maxHp
    ensures r.skill == p.skill
  {
    var q := CountDownReverse(p);
    if q.isFrozen then FrozenStep(q, pls) else ActiveStep(q, keys, pls)
  }

  /** What `use_skill` hands back: the fighter afterwards and the skill it fired, if any. */
  datatype SkillUse = SkillUse(player: Player, used: Option<Skill>)

  /** `use_skill`: fire the held skill when off cooldown; `pow` and `delete` start a swing. */
  function UseSkill(p: Player): (r: SkillUse)
    ensures r.used.Some? <==> p.skill.Some? && p.attackCooldown <= 0
    ensures r.used.None? ==> r.player == p
    ensures r.used.Some? ==> r.used == p.skill && r.player.skill == None
    ensures r.used.Some? ==> r.player.attackCooldown == ATTACK_COOLDOWN
    ensures r.used == Some(Pow) || r.used == Some(Delete) ==> r.player.isAttacking && r.player.attackFrame == 0
    ensures r.used == Some(Print) ==> r.player.isAttacking == p.isAttacking && r.player.attackFrame == p.attackFrame
    ensures r.player == p.(skill := r.player.skill, attackCooldown := r.player.attackCooldown,
                           isAttacking := r.player.isAttacking, attackFrame := r.player.attackFrame)
  {
    if p.skill.Some? && p.attackCooldown <= 0 then
      var s := p.skill.value;
      var spent := p.(skill := None, attackCooldown := ATTACK_COOLDOWN);
      if s == Pow || s == Delete then SkillUse(spent.(isAttacking := true, attackFrame := 0), Some(s))
      else SkillUse(spent, Some(s))
    else SkillUse(p, None)
  }

  /** Two presses in a row fire at most one skill: the second finds the slot empty or the cooldown running. */
  lemma UseSkillTwiceFiresOnce(p: Player)
    ensures UseSkill(UseSkill(p).player).used == None
  {
  }

  /** The reach box of a swing, beside the body on the facing side. */
  function AttackRect(p: Player): (r: Option<Box>)
    ensures r.Some? <==> p.isAttacking
    ensures r.Some? ==> r.value.width == ATTACK_WIDTH && r.value.height == ATTACK_HEIGHT && r.value.y == p.y
    ensures r.Some? && p.facingRight ==> r.value.x == p.x + p.width as real
    ensures r.Some? && !p.facingRight ==> r.value.x + ATTACK_WIDTH == p.x
    ensures r.Some? ==> !Overlaps(Body(p), r.value)
  {
    if !p.isAttacking then None
    else if p.facingRight then Some(Box(p.x + p.width as real, p.y, ATTACK_WIDTH, ATTACK_HEIGHT))
    else Some(Box(p.x - ATTACK_WIDTH, p.y, ATTACK_WIDTH, ATTACK_HEIGHT))
  }

  /** `take_damage`: lose `damage` hit points, floored at zero, and get pushed `15 * direction` pixels per tick. */
  function TakeDamage(p: Player, damage: int, direction: int): (r: Player)
    ensures r == p.(hp := r.hp, knockbackX := r.knockbackX)
    ensures r.hp >= 0
    ensures r.hp == p.hp - damage || (r.hp == 0 && p.hp - damage < 0)
    ensures r.knockbackX == (direction * KNOCKBACK_SCALE) as real
  {
    var hp := p.hp - damage;
    p.(hp := if hp < 0 then 0 else hp, knockbackX := (direction * KNOCKBACK_SCALE) as real)
  }

  /** Health stays within [0, maxHp] under any non-negative damage. */
  lemma TakeDamageKeepsValid(p: Player, damage: int, direction: int)
    requires Valid(p) && damage >= 0
    ensures Valid(TakeDamage(p, damage, direction))
    ensures TakeDamage(p, damage, direction).hp <= p.hp
  {
  }

  /** `freeze`: (re)start the full freeze and stop horizontal motion; a second freeze refreshes, never stacks. */
  function Freeze(p: Player): (r: Player)
    ensures r == p.(isFrozen := true, freezeTimer := r.freezeTimer, velX := 0.0)
    ensures r.freezeTimer == FREEZE_DURATION
    ensures Valid(p) ==> Valid(r)
  {
    p.(isFrozen := true, freezeTimer := FREEZE_DURATION, velX := 0.0)
  }

  /** `reverse_controls`: (re)start the full reversal; a second one refreshes, never stacks. */
  function ReverseControls(p: Player): (r: Player)
    ensures r == p.(isReversed := true, reverseTimer := r.reverseTimer)
    ensures r.reverseTimer == REVERSED_DURATION
    ensures Valid(p) ==> Valid(r)
  {
    p.(isReversed := true, reverseTimer := REVERSED_DURATION)
  }
}

=== FILE: player_ticks.dfy ===
/** What one `Player.update` and a run of them promise, stated against the fighter before the tick. */
module PlayerTicks {
  import opened Wrappers
  import opened Settings
  import opened Players
  import Platforms

  /** Every update keeps the between-tick invariant: health bounds, the swing window
      (attacking implies frame 0..15), timers within their durations and in step with their flags. */
  lemma UpdateKeepsValid(p: Player, keys: Keys, pls: seq<Platforms.Platform>)
    requires Valid(p)
    ensures Valid(Update(p, keys, pls))
  {
    var q := CountDownReverse(p);
    assert Valid(q);
    if q.isFrozen {
      FrozenStepKeepsValid(q, pls);
    } else {
      ActiveStepKeepsValid(q, keys, pls);
    }
  }

  lemma LandKeepsValid(p: Player, pls: seq<Platforms.Platform>)
    requires Valid(p.(onGround := false))
    ensures Valid(Land(p, pls))
  {
  }

  lemma FrozenStepKeepsValid(q: Player, pls: seq<Platforms.Platform>)
    requires Valid(q) && q.isFrozen
    ensures Valid(FrozenStep(q, pls))
  {
    var c := CountDownFreeze(q);
    assert Valid(c);
    LandKeepsValid(Halt(c), pls);
  }

  lemma ActiveStepKeepsValid(q: Player, keys: Keys, pls: seq<Platforms.Platform>)
    requires Valid(q) && !q.isFrozen
    ensures Valid(ActiveStep(q, keys, pls))
  {
    var prepared := Prepare(q, keys);
    assert Valid(prepared) by {
      var c := CoolDown(q);
      assert Valid(c);
      var s := AdvanceSwing(c);
      assert Valid(s);
      var d := DecayKnockback(s);
      assert Valid(d);
    }
    var jumped := Jump(prepared, keys.jump);
    assert Valid(jumped);
    var fallen := Fall(jumped);
    assert Valid(fallen.(onGround := false));
    LandKeepsValid(fallen, pls);
  }

  /** The reverse countdown runs in every update, frozen or not, and clears the flag as it reaches zero. */
  lemma UpdateCountsDownReverse(p: Player, keys: Keys, pls: seq<Platforms.Platform>)
    requires Valid(p)
    ensures var r := Update(p, keys, pls);
      && (p.isReversed ==> r.reverseTimer == p.reverseTimer - 1)
      && (!p.isReversed ==> r.reverseTimer == 0)
      && (r.isReversed <==> p.reverseTimer > 1)
  {
  }

  /** A frozen tick: the freeze counts down, horizontal speed is forced to zero, and position x,
      cooldown, swing, knockback, facing and health are untouched; only gravity and landing act. */
  lemma FrozenUpdate(p: Player, keys: Keys, pls: seq<Platforms.Platform>)
    requires Valid(p) && p.isFrozen
    ensures var r := Update(p, keys, pls);
      && r.x == p.x && r.velX == 0.0
      && r.attackCooldown == p.attackCooldown && r.isAttacking == p.isAttacking && r.attackFrame == p.attackFrame
      && r.knockbackX == p.knockbackX && r.facingRight == p.facingRight && r.hp == p.hp
      && r.freezeTimer == p.freezeTimer - 1 && (r.isFrozen <==> p.freezeTimer > 1)
      && (!r.onGround ==> r.velY == p.velY + GRAVITY && r.y == p.y + p.velY + GRAVITY)
  {
    var q := CountDownReverse(p);
    var c := CountDownFreeze(q);
    LandSpec(Halt(c), pls);
  }

  /** An unfrozen tick ends with the body inside the arena, and a fighter below the arena floor is dead. */
  lemma ActiveUpdateBounds(p: Player, keys: Keys, pls: seq<Platforms.Platform>)
    requires !p.isFrozen && p.width <= WIDTH
    ensures var r := Update(p, keys, pls);
      && 0.0 <= r.x <= (WIDTH - p.width) as real
      && r.hp == (if r.y > HEIGHT as real then 0 else p.hp)
      && r.freezeTimer == p.freezeTimer && !r.isFrozen
  {
  }

  /** Gravity and jumping in an unfrozen tick: a jump replaces the vertical speed only from the
      ground, gravity is then always added, and only a landing cancels the result. */
  lemma ActiveUpdateVertical(p: Player, keys: Keys, pls: seq<Platforms.Platform>)
    requires !p.isFrozen
    ensures var r := Update(p, keys, pls);
      var vy := (if keys.jump && p.onGround then JUMP_POWER else p.velY) + GRAVITY;
      && (r.onGround ==> r.velY == 0.0 && vy > 0.0)
      && (!r.onGround ==> r.velY == vy)
  {
    var q := CountDownReverse(p);
    var prepared := Prepare(q, keys);
    assert prepared.onGround == p.onGround && prepared.velY == p.velY;
    var fallen := Fall(Jump(prepared, keys.jump));
    LandSpec(fallen, pls);
  }

  /** The swing counter in an unfrozen tick: one frame more, or the swing ends after frame 15. */
  lemma ActiveUpdateSwing(p: Player, keys: Keys, pls: seq<Platforms.Platform>)
    requires !p.isFrozen
    ensures var r := Update(p, keys, pls);
      && (p.isAttacking && p.attackFrame < SWING_LAST_FRAME ==> r.isAttacking && r.attackFrame == p.attackFrame + 1)
      && (p.isAttacking && p.attackFrame >= SWING_LAST_FRAME ==> !r.isAttacking && r.attackFrame == 0)
      && (!p.isAttacking ==> !r.isAttacking && r.attackFrame == p.attackFrame)
      && r.attackCooldown == (if p.attackCooldown > 0 then p.attackCooldown - 1 else p.attackCooldown)
  {
  }

  /** With controls reversed (and not about to expire), holding only "right" walks left. */
  lemma ReversedRightWalksLeft(p: Player, jump: bool, pls: seq<Platforms.Platform>)
    requires !p.isFrozen && !p.isAttacking
    requires p.isReversed && p.reverseTimer > 1
    ensures var r := Update(p, Keys(false, true, jump), pls);
      r.velX == -MOVE_SPEED && !r.facingRight
  {
  }

  /** A fighter mid-swing does not walk, whatever the keys. */
  lemma SwingingStandsStill(p: Player, keys: Keys, pls: seq<Platforms.Platform>)
    requires p.isAttacking && p.attackFrame < SWING_LAST_FRAME
    ensures Update(p, keys, pls).velX == 0.0
  {
  }

  /** Knockback never grows during an update. */
  lemma UpdateNeverAmplifiesKnockback(p: Player, keys: Keys, pls: seq<Platforms.Platform>)
    ensures Abs(Update(p, keys, pls).knockbackX) <= Abs(p.knockbackX)
  {
  }

  /** One tick's input for a fighter: its keys and the platforms as they stand. */
  datatype Input = Input(keys: Keys, platforms: seq<Platforms.Platform>)

  /** Successive updates, one per input. */
  function Run(p: Player, ins: seq<Input>): Player
    decreases |ins|
  {
    if |ins| == 0 then p else Run(Update(p, ins[0].keys, ins[0].platforms), ins[1..])
  }

  function Max0(n: int): int {
    if n < 0 then 0 else n
  }

  /** Over any run, the reversal counts down one per tick whatever else happens. */
  lemma {:induction false} RunCountsDownReverse(p: Player, ins: seq<Input>)
    requires Valid(p)
    ensures Valid(Run(p, ins))
    ensures Run(p, ins).reverseTimer == Max0(p.reverseTimer - |ins|)
    decreases |ins|
  {
    if |ins| > 0 {
      UpdateKeepsValid(p, ins[0].keys, ins[0].platforms);
      UpdateCountsDownReverse(p, ins[0].keys, ins[0].platforms);
      RunCountsDownReverse(Update(p, ins[0].keys, ins[0].platforms), ins[1..]);
    }
  }

  /** Over any run, the freeze counts down one per tick, and while it lasts the fighter stays
      at the same x and its knockback waits unapplied. */
  lemma {:induction false} RunCountsDownFreeze(p: Player, ins: seq<Input>)
    requires Valid(p)
    ensures Valid(Run(p, ins))
    ensures |ins| <= p.freezeTimer ==> Run(p, ins).freezeTimer == p.freezeTimer - |ins|
    ensures |ins| <= p.freezeTimer ==> Run(p, ins).x == p.x && Run(p, ins).knockbackX == p.knockbackX
    decreases |ins|
  {
    if |ins| > 0 {
      var q := Update(p, ins[0].keys, ins[0].platforms);
      UpdateKeepsValid(p, ins[0].keys, ins[0].platforms);
      if p.isFrozen {
        FrozenUpdate(p, ins[0].keys, ins[0].platforms);
      }
      RunCountsDownFreeze(q, ins[1..]);
    }
  }

  /** A TypeError reversal lasts exactly REVERSED_DURATION ticks, however the fighter is moved. */
  lemma ReversalLastsItsDuration(p: Player, ins: seq<Input>)
    requires Valid(p)
    ensures Run(ReverseControls(p), ins).isReversed <==> |ins| < REVERSED_DURATION
  {
    RunCountsDownReverse(ReverseControls(p), ins);
  }

  /** A Ctrl+C freeze lasts exactly FREEZE_DURATION ticks, and the frozen fighter keeps its x throughout. */
  lemma FreezeLastsItsDuration(p: Player, ins: seq<Input>)
    requires Valid(p)
    requires |ins| <= FREEZE_DURATION
    ensures Run(Freeze(p), ins).isFrozen <==> |ins| < FREEZE_DURATION
    ensures Run(Freeze(p), ins).x == p.x
  {
    RunCountsDownFreeze(Freeze(p), ins);
  }
}

=== FILE: projectile.dfy ===
/** The `print` shot of entities/projectile.py. */
module Projectiles {
  import opened Settings
  import opened Geometry
  import opened Players

  datatype Projectile = Projectile(
    x: real, y: real,
    direction: int,
    owner: PlayerId,
    velX: real,
    active: bool,
    damage: int)

  const SHOT_DAMAGE: int := 2
  /** A shot leaves play this far beyond either side wall. */
  const OFFSCREEN_MARGIN: real := 50.0
  /** The shot's hit box, centred on its position. */
  const SHOT_WIDTH: real := 60.0
  const SHOT_HEIGHT: real := 30.0

  /** `Projectile(x, y, direction, owner)`. */
  function NewProjectile(x: real, y: real, direction: int, owner: PlayerId): (r: Projectile)
    ensures r.x == x && r.y == y && r.direction == direction && r.owner == owner
    ensures r.velX == (PROJECTILE_SPEED * direction) as real
    ensures r.damage == 2 && r.active
  {
    Projectile(x, y, direction, owner, (PROJECTILE_SPEED * direction) as real, true, SHOT_DAMAGE)
  }

  predicate Offscreen(x: real) {
    x < -OFFSCREEN_MARGIN || x > WIDTH as real + OFFSCREEN_MARGIN
  }

  /** One tick of flight: straight across, and out of play beyond either side margin; a shot
      out of play never comes back. */
  function Update(q: Projectile): (r: Projectile)
    ensures r == q.(x := r.x, active := r.active)
    ensures r.x == q.x + q.velX
    ensures r.active <==> q.active && !Offscreen(r.x)
  {
    var x := q.x + q.velX;
    if Offscreen(x) then q.(x := x, active := false) else q.(x := x)
  }

  function HitBox(q: Projectile): (b: Box)
    ensures b.x + b.width / 2.0 == q.x && b.y + b.height / 2.0 == q.y
    ensures b.width == SHOT_WIDTH && b.height == SHOT_HEIGHT
  {
    Box(q.x - SHOT_WIDTH / 2.0, q.y - SHOT_HEIGHT / 2.0, SHOT_WIDTH, SHOT_HEIGHT)
  }

  /** `check_collision(player)`: never the shooter; otherwise the 60x30 box around the shot overlaps the body. */
  function Hits(q: Projectile, target: PlayerId, p: Player): (r: bool)
    ensures target == q.owner ==> !r
    ensures target != q.owner ==>
      (r <==> && q.x - 30.0 < p.x + p.width as real && p.x < q.x + 30.0
              && q.y - 15.0 < p.y + p.height as real && p.y < q.y + 15.0)
  {
    target != q.owner && Overlaps(HitBox(q), Body(p))
  }

  /** Hitting depends only on where the body is. */
  lemma HitsSameBody(q: Projectile, target: PlayerId, p: Player, o: Player)
    requires SameBody(p, o)
    ensures Hits(q, target, p) <==> Hits(q, target, o)
  {
  }

  /** The knockback direction `update_projectiles` passes to `take_damage`. */
  function PushDirection(q: Projectile): (d: int)
    ensures d == 10 || d == -10
    ensures d > 0 <==> q.direction > 0
  {
    if q.direction > 0 then 10 else -10
  }
}

=== FILE: settings.dfy ===
/** The game constants of settings.py that the simulation reads. */
module Settings {

  /** Arena size in pixels. */
  const WIDTH: int := 1200
  const HEIGHT: int := 800

  /** Per-tick physics. */
  const GRAVITY: real := 1.0
  const JUMP_POWER: real := -18.0
  const MOVE_SPEED: real := 6.0

  /** Timers, in ticks. */
  const ATTACK_COOLDOWN: int := 30
  const BUBBLE_SPAWN_TIME: int := 150
  const FREEZE_DURATION: int := 180
  const REVERSED_DURATION: int := 600

  /** Horizontal speed of a `print` shot. */
  const PROJECTILE_SPEED: int := 10

  /** The RGB colours a bubble can take. */
  datatype Colour = RGB(r: int, g: int, b: int)

  const RED: Colour := RGB(255, 60, 60)
  const ORANGE: Colour := RGB(255, 150, 50)
  const GRAY: Colour := RGB(150, 150, 150)
  const CYAN: Colour := RGB(0, 255, 255)
  const YELLOW: Colour := RGB(255, 215, 0)
  const DARK_RED: Colour := RGB(139, 0, 0)
}

=== FILE: wrappers.dfy ===
/** Failure-compatible wrappers shared by the whole model. */
module Wrappers {

  /** Python's `None` or a present value. */
  datatype Option<+T> = None | Some(value: T)

  /** A computation that either produces a value or stops with an error. */
  datatype Result<+R, +E> = Success(value: R) | Failure(error: E)
}
